=== FILE: README.md ===
# Seesaw MAX-SAT search, modelled in Dafny

This project models the core of a randomized local-search MAX-SAT solver:

- A problem in DIMACS `p cnf` form: `noOfVariables`, `noOfClauses` and a clause array.
- Literals point at shared `Variable` objects. A clause is a fixed-length array of literals.
- Two "Seesaw" searches flip variables to satisfy as many clauses as they can:
  - the count-based search. It forces every clause true, tallies how often each variable was seen true or false, and sets every variable by majority vote;
  - the incremental search. It moves clauses between an "unexplored" pool and an "accepted" pool and repairs the first false clause it meets.
- The searches report a `Solution`. A PJ2 reduction variable `SolutionVbl` keeps the solution with the most satisfied clauses.
- The `MAXSATSolverSmp_3` driver runs up to 150 restart rounds of the incremental search and feeds the best clauses forward.

How Java's shapes become Dafny:

- **Variables.** The shared mutable `Variable` objects become one *arena*: an `Assignment = seq<bool>` indexed by variable name. A literal is a name plus a polarity. Flipping a variable, `Flip(a, v)`, is seen by every literal that names `v`, exactly as every literal holding the same `Variable` object sees it.
- **Clause arrays.** A `Clause[]` together with the variables it reaches is a `Formula(clauses, values)`.
- **Deep copy.** A deep copy produces a new arena and shares no variable with the original.
- **Exceptions and `null`.** Java exceptions become the `Result` error values `NegativeArraySize`, `IndexOutOfBounds`, `InvalidLiteralCount`, `IllegalArgument` and `NullPointer`. A `null` field (a Solution's clauses, a tally slot, the clauses fed to the next round) becomes `None`; the `null` entries of a freshly allocated literal array are the `Unset` literal.
- **Randomness.** `random.nextInt`, `random.nextDouble() <= 0.3` and the seeds become arbitrary choices (`:|`). So every property below holds for every sequence of random draws.
- **Wall clock.** The clock is a `real` parameter.
- **Workers.** The workers of one round run one after another in index order, each offering its result to the shared variable. `SolutionVbls.ThreadLocalFold` shows, for a single thread-local copy, that folding the offers into the copy and reducing it into the shared variable reaches the count of the direct fold; several copies joined one after another are not covered by a lemma.

Modules, one per source concept: `Base` (Option/Result), `Literals`, `Clauses`, `Problem` (parameters and satisfied counts), `Utilities` (deep copy), `Solutions`, `SolutionVbls`, `CountBased`, `Incremental`, `Restart`.

## Model

| member | source | states |
|---|---|---|
| Literals.Value | Literal.java:40-47 | a literal is true exactly when its variable's value differs from its negation flag |
| Literals.FlipSeenByEveryAlias | Literal.java:32-47 | flipping variable `v` negates the value of every literal naming `v` and leaves every other literal's value unchanged |
| Clauses.NewClause | Clause.java:23-26 | a clause of length `n` holds an array of exactly `n` entries; a negative length throws NegativeArraySizeException |
| Clauses.SetLiterals | Clause.java:41-56 | the array is stored exactly when its length equals `clauseLength`; otherwise the call throws and the clause keeps its array |
| Clauses.Satisfied | Clause.java:63-77 | the first-true-literal scan answers true exactly when some literal of the clause is true |
| Clauses.EmptyClauseUnsatisfied | Clause.java:63-77 | a clause with no literals is never satisfied |
| Clauses.FlipSatisfies | SeesawSearchCountBased.java:79-84 | flipping the variable of any literal of a false clause makes that clause true |
| Clauses.SatisfiedAgree | Clause.java:63-77 | satisfaction depends only on the values of the variables the clause names |
| Problem.CountSatisfied | SeesawSearchCountBased.java:129-135 | the satisfied count is at most the number of clauses, and equals it exactly when every clause is true |
| Problem.CountSatisfiedAgree | SeesawSearchCountBased.java:129-135 | two assignments that agree on every named variable give the same count |
| Problem.DistinctSatisfiedBound | SeesawSearchIncremental.java:240-246 | a list of distinct true clauses is no longer than the satisfied count |
| Problem.FirstIndexSnoc | SeesawSearchCountBased.java:137-150 | after one more count, a first index of a positive best among the earlier counts means the best did not move and was first reached there; the new index means the count strictly improved the best |
| Problem.FirstBestSnoc | SeesawSearchCountBased.java:137-150 | moving the best only on a strict improvement keeps it the maximum, first reached at the recorded iteration |
| Utilities.ExtractVariables | Utilities.java:292-306 | the copy has `n + 1` slots, a slot is filled exactly when some literal names it and then holds that variable's value; a name above `n` throws IndexOutOfBounds, `n < -1` throws NegativeArraySize |
| Utilities.CopyClauses | Utilities.java:320-339 | every clause is rebuilt with the same names and polarities; a clause whose array length differs from its `clauseLength` makes `setLiterals` throw |
| Utilities.DeepCopyClauses | Utilities.java:316-342 | the copy fails exactly when a name is out of range or a clause is malformed; otherwise it has the same clauses, a fresh arena of `n + 1` slots with the source's values on every named slot, and `false` on the slots no literal names |
| Utilities.DeepCopyPreservesSatisfaction | Utilities.java:316-342 | each copied clause is true exactly when its original is, so the copy satisfies the same count |
| Utilities.CopyIsolatedAndShared | Utilities.java:292-339 | in the copy a flip of `v` is seen by every copied literal naming `v` and by no other; the original's literal values stay as they were |
| Utilities.DeepCopyParameters | Utilities.java:272-282 | the counts are kept and the clauses are deep-copied with the problem's own variable count, failing exactly when that copy fails |
| Utilities.Snapshot | SeesawSearchCountBased.java:140-142 | the snapshot of the current state has the same clauses and satisfies the same count |
| Solutions.NewSolution | Solution.java:32-40 | fewer than one variable throws IllegalArgumentException; otherwise a solution with zero counts and no clauses |
| Solutions.CopiedClauses | Solution.java:54-61 | the clauses after `copy`/`update`: the old clauses when the source holds none or the copy throws, otherwise a separate copy satisfying the same count |
| Solutions.Copy | Solution.java:48-64 | iterations, count and time are taken from the source, the variable count is kept, and validity is preserved |
| Solutions.Update | Solution.java:70-86 | iterations and time are added, the count is replaced, and the clauses are copied as in `copy` |
| Solutions.Clone | Solution.java:91-95 | the clone has the same counts and time, and its clauses are a separate copy satisfying the same count |
| SolutionVbls.Compare | SolutionVbl.java:52-58 | the held count becomes the larger of the two; a candidate that is not strictly better leaves the holder unchanged; a strictly better one brings its iterations and time and a deep copy of its clauses taken on the holder's variable count (`CopiedClauses`), and the holder keeps its variable count and validity |
| SolutionVbls.Reduce | SolutionVbl.java:67-74 | joining two variables keeps the larger count; a tie keeps the holder |
| SolutionVbls.ReduceIsCompare | SolutionVbl.java:52-74 | `reduce` with another variable is `compareNoOfSatisfiedClauses` with its solution |
| SolutionVbls.Set | SolutionVbl.java:38-41 | `set` takes over the other variable's count, iterations and time, deep-copies its clauses on its own variable count (`CopiedClauses`), and keeps its own variable count |
| SolutionVbls.CloneVbl | SolutionVbl.java:30-36 | the clone holds a valid solution with the same count, iterations, time and variable count; its clauses are a separate copy of the same clauses satisfying the same count when they can be copied, and absent otherwise |
| SolutionVbls.AbsorbSnoc | MAXSATSolverSmp_3.java:115-131 | offering one more worker's solution after a fold is one more compare |
| SolutionVbls.AbsorbKeepsMax | MAXSATSolverSmp_3.java:104-132 | after a round of offers the count is at least the starting count and every offered count, and equals one of them |
| SolutionVbls.AbsorbOrderIrrelevant | MAXSATSolverSmp_3.java:104-132 | the final count does not depend on the order in which workers offer their solutions |
| SolutionVbls.Dominates | MAXSATSolverSmp_3.java:104-132 | no order of the same offers ends with a higher count than another order |
| SolutionVbls.ThreadLocalFold | MAXSATSolverSmp_3.java:110-124 | a thread-local clone folded over its offers and reduced into the shared variable reaches the count of a direct fold |
| SolutionVbls.FoldExample | MAXSATSolverSmp_3.java:104-132 | offers with counts 3, 7, 5, 7, 2 end at 7 in every order |
| SolutionVbls.TieKeepsHolder | SolutionVbl.java:52-58 | on a tie the first holder stays, so the surviving iteration count depends on the order while the count does not |
| CountBased.TallyClause | SeesawSearchCountBased.java:86-105 | each slot gains one sighting, on its current value's side, per literal of the clause naming it; a `null` slot is created on first sighting |
| CountBased.ProcessClause | SeesawSearchCountBased.java:76-105 | a false clause gets one of its literals flipped and ends true, a true clause is untouched, and then its sightings are tallied |
| CountBased.TallyCoversOccurrences | SeesawSearchCountBased.java:86-105 | every occurrence of a variable in the clauses is tallied exactly once, on one side |
| CountBased.OptimizationPass | SeesawSearchCountBased.java:73-107 | clause `j` is true right after its step, each step flips at most one of its literals' variables, and every slot holds the true/false sightings of its variable over the pass |
| CountBased.ConstrainingPass | SeesawSearchCountBased.java:119-127 | corrected pass: every variable `1..n` with a tally slot becomes true exactly when its true count is at least its false count; a variable without a slot keeps its value; slot 0 is untouched |
| CountBased.ConstrainingPassAsWritten | SeesawSearchCountBased.java:119-127 | the pass as written throws NullPointerException exactly when some slot `1..n` is `null`; otherwise every variable takes its majority vote |
| CountBased.VoteIsMajority | SeesawSearchCountBased.java:119-127 | true count ≥ false count is the same as true sightings forming at least half of all occurrences, and a variable that occurs has a slot |
| CountBased.CountPass | SeesawSearchCountBased.java:129-135 | the loop counts exactly the clauses true under the assignment |
| CountBased.Iteration | SeesawSearchCountBased.java:57-135 | one iteration from `a` follows a clause-by-clause trace in which a true clause is left alone and a false one gets one of its literals' variables flipped; then every variable that occurs holds the majority vote of its sightings along that trace, one that does not keeps its value, and `temp` is the satisfied count of the result |
| CountBased.UnnamedKept | SeesawSearchCountBased.java:73-107 | a variable no clause names is never flipped by the optimization pass, so it leaves an iteration with its entering value |
| CountBased.Advance | SeesawSearchCountBased.java:57-150 | the step is one iteration as `Iteration` states it; the best becomes the new count only on a strict improvement, and then the snapshot is a copy of the clauses under the new assignment, else it is unchanged; the snapshot always satisfies exactly the best count |
| CountBased.TakenAtFirstSnoc | SeesawSearchCountBased.java:137-142 | a snapshot replaced exactly on a strict improvement remains the copy taken after the first iteration reaching the best |
| CountBased.TracedSnoc | SeesawSearchCountBased.java:55-150 | one more iteration and its best-so-far update extend the recorded traces and keep the best their first maximum |
| CountBased.Record | SeesawSearchCountBased.java:55-150 | one pass of the max-tries loop appends its start, trace and count to the record, which stays a faithful record of the run |
| CountBased.Solve | SeesawSearchCountBased.java:55-165 | iteration `k` runs, as `Iteration` states, from `starts[k]` to `starts[k+1]`, the first from the problem's own assignment; the count is the first maximum of the iteration counts and the clauses the deep copy taken under `starts[k+1]` for the first iteration `k` reaching it, satisfying exactly that count and held exactly when it is positive; iterations and time are reported; no try gives 0 iterations, 0 and no clauses; the loop ends early only on a count reaching every clause; fewer than one variable throws |
| CountBased.IteratedSnoc | SeesawSearchCountBased.java:55-151 | the per-iteration record extended by one iteration stays a record of consecutive iterations |
| CountBased.UnusedVariable | SeesawSearchCountBased.java:119-121 | `p cnf 2 1` with the clause `1` is a well-formed problem in which variable 2 occurs in no clause |
| CountBased.UnusedVariableWitness | SeesawSearchCountBased.java:119-127 | on that problem the as-written constraining pass throws NullPointerException for every random draw, while the corrected pass keeps variable 2 at `false` |
| Incremental.RemoveAt | SeesawSearchIncremental.java:83-86 | removing an index keeps every other clause, in order |
| Incremental.OptimizationPhase | SeesawSearchIncremental.java:76-96 | clauses move only from unexplored to accepted and only when true, the assignment is untouched, and the phase ends with a false conflict clause or with the unexplored pool empty |
| Incremental.Split | SeesawSearchIncremental.java:144-159 | the walk keeps exactly the still-true clauses and sends back the now-false ones, losing and adding no clause |
| Incremental.Evict | SeesawSearchIncremental.java:144-159 | the iterator walk with `remove` computes that partition |
| Incremental.FirstBroken | SeesawSearchIncremental.java:193-214 | the walk stops at the first accepted clause that is false, and finds none exactly when all are true |
| Incremental.PreservingFlip | SeesawSearchIncremental.java:179-220 | the chosen flip is the first, in literal order, that keeps every accepted clause true, and it makes the false clause true; every earlier flip breaks some accepted clause; with no such flip the assignment is restored and the accepted pool is not empty |
| Incremental.NoiseStep | SeesawSearchIncremental.java:125-160 | one literal's variable of the false clause is flipped, the clause is accepted, the walk over the accepted clauses and the false clause keeps exactly the ones still true and appends the now-false ones, in order, to the unexplored pool, and no clause is lost |
| Incremental.NoiseKeeps | SeesawSearchIncremental.java:144-159 | when the flipped clause is true, the walk keeps it accepted, and appending what it sends back leaves the old unexplored pool as a prefix and loses or adds no clause |
| Incremental.PreservingStep | SeesawSearchIncremental.java:162-238 | with a flip found, it is the first literal in order whose flip keeps every accepted clause true, and the false clause is appended to the accepted pool; with none, no literal's flip preserves the accepted clauses, the assignment is unchanged, and the false clause and one randomly removed accepted clause go back to the unexplored pool, in that order |
| Incremental.AcceptKeeps | SeesawSearchIncremental.java:222-223 | accepting a true clause keeps every accepted clause true |
| Incremental.SendBackKeeps | SeesawSearchIncremental.java:234-236 | sending back the false clause and one accepted clause keeps every clause in exactly one pool |
| Incremental.ConstrainingPhase | SeesawSearchIncremental.java:119-238 | the outcome is exactly what one of the two branches produces (`Noised` or `Preserved`), and the pools again split all clauses with every accepted clause true |
| Incremental.AcceptedBound | SeesawSearchIncremental.java:240-246 | the accepted pool's size never exceeds the number of clauses the assignment satisfies |
| Incremental.AllAccepted | SeesawSearchIncremental.java:98-103 | an accepted pool as large as the clause array means every clause is true |
| Incremental.Iterate | SeesawSearchIncremental.java:64-238 | the full-satisfaction exit fires exactly when the assignment satisfies every clause, and changes nothing; otherwise the iteration is an optimization phase stopping at a false clause followed by one of the two branches (`Iterated`), and the pools stay a partition |
| Incremental.RecordBest | SeesawSearchIncremental.java:240-246 | a strictly larger pool becomes the best and replaces the snapshot with the deep copy of the clauses under the current assignment, which satisfies at least that many clauses; a pool no larger than the best leaves best and snapshot unchanged |
| Incremental.Search | SeesawSearchIncremental.java:45-247 | iteration `i` that reached the constraining phase took `trace[i]` to `trace[i+1]` as `Iterated` states, from the start with every clause unexplored, leaving `sizes[i]` accepted clauses; the best is the first maximum of those sizes and the snapshot is the deep copy of the clauses under `trace[k+1]` for the first iteration `k` reaching it, absent while the best is 0; the loop ran `maxTries` such iterations or stopped at the full exit; an all-satisfying start leaves after one iteration with best 0 and no snapshot, because the exit comes before the update |
| Incremental.Start | SeesawSearchIncremental.java:45-53 | the search starts with every clause unexplored and none accepted, a partition of the clauses |
| Incremental.Record | SeesawSearchIncremental.java:62-246 | one pass of the max-tries loop either takes the full exit from an all-satisfying state with nothing recorded, or records one more iteration and its best-so-far update |
| Incremental.Extend | SeesawSearchIncremental.java:240-246 | after an iteration that reached the constraining phase, the best becomes the larger of the old best and the pool size, and the traces grow by that iteration while keeping the best their first maximum and the snapshot the copy taken at it |
| Incremental.TakenAtFirstSnoc | SeesawSearchIncremental.java:240-246 | a snapshot replaced exactly on a strict improvement remains the copy taken after the first iteration reaching the largest pool |
| Incremental.TakenAtFirstAt | SeesawSearchIncremental.java:240-246 | for one index: an earlier first maximum keeps its snapshot, and a new one is the snapshot just taken |
| Incremental.TracedSnoc | SeesawSearchIncremental.java:240-246 | one more iteration and the best-so-far update keep the best the first maximum of the recorded pool sizes |
| Incremental.IterationsSnoc | SeesawSearchIncremental.java:62-247 | the per-iteration record extended by one iteration stays a record of consecutive iterations |
| Incremental.Solve | SeesawSearchIncremental.java:249-261 | the reported Solution carries the time and the iterations, best and snapshot of a run of the max-tries loop (`Reported`), so it is one the search can report (`Searched`); fewer than one variable throws; an all-satisfying start reports one iteration, 0 and no clauses |
| Restart.CompareKeeps | MAXSATSolverSmp_3.java:124 | offering a worker's solution keeps the shared clauses a copy of the problem satisfying at least the shared count |
| Restart.CopyFor | MAXSATSolverSmp_3.java:118-121 | each worker searches a deep copy of the current problem with the same counts and clauses, each clause true under the copy exactly when it is true under the original |
| Restart.Work | MAXSATSolverSmp_3.java:115-124 | a worker's result is one the incremental search can report on the deep copy (`Searched`), with clauses that satisfy at least its count; no try or an all-satisfying start reports 0 |
| Restart.Offer | MAXSATSolverSmp_3.java:115-124 | one worker's turn appends its search result to the round's results and compares it into the shared variable, which stays restartable and whose count never drops |
| Restart.OfferedSnoc | MAXSATSolverSmp_3.java:115-131 | what a round knows (the shared variable is the fold of the results, each a search result on the copy, no proper prefix reached every clause) survives one more offer |
| Restart.SearchedSnoc | MAXSATSolverSmp_3.java:118-121 | appending a search result to search results keeps every entry a search result |
| Restart.PrefixesSnoc | MAXSATSolverSmp_3.java:126-130 | if no earlier offer reached every clause and the last did not either, no proper prefix of the extended results did |
| Restart.Round | MAXSATSolverSmp_3.java:104-132 | the shared variable ends as the fold of the workers' results, in order; each result is one the incremental search can report on the deep copy; the round runs every worker unless an offer reached every clause, and then stops right after the first such offer; the count never drops; no try or an all-satisfying start keeps a count of 0 |
| Restart.Step | MAXSATSolverSmp_3.java:104-162 | one round recorded by `RoundOf`, then the feed-forward: the next round starts from the held clauses; when none are held, from `null` as written and from the current clauses when corrected, so the next clauses are absent exactly when, as written, the shared count is still 0; a round with workers needs current clauses, since a worker's deep copy of a `null` array throws |
| Restart.FeedForward | MAXSATSolverSmp_3.java:161-162 | held clauses are always fed forward; the next round has no clauses exactly when none are held and either the driver is as written or there were no current clauses |
| Restart.RecordRound | MAXSATSolverSmp_3.java:147-153 | recording a round keeps the counts non-decreasing and `bestM` the first round that reached `bestMax` |
| Restart.ProgressStart | MAXSATSolverSmp_3.java:87-93 | before round 1 the reduction variable holds a new solution, the round counts are empty and the current clauses are the problem's |
| Restart.RoundsSnoc | MAXSATSolverSmp_3.java:95-163 | the rounds' record extended by one round stays a record of consecutive rounds |
| Restart.ProgressSnoc | MAXSATSolverSmp_3.java:147-162 | the loop's knowledge (monotone counts, first best round, feed-forward facts) survives one more round |
| Restart.RoundSnoc | MAXSATSolverSmp_3.java:95-162 | one more round, as `Step` states it, extends both the record and the loop's knowledge |
| Restart.RunRound | MAXSATSolverSmp_3.java:104-162 | one pass of the restart loop appends the round's fold and count to the record, with the best round updated only on a strict improvement; `bestMax` becomes the new shared count, never below the old one, and the next clauses are the problem's when present |
| Restart.Finish | MAXSATSolverSmp_3.java:155-163 | where the loop ends normally, the counts are monotone, `bestMax` is the final count and `bestM` its first round, and only the last round can have reached every clause |
| Restart.Stuck | MAXSATSolverSmp_3.java:162 | a round with workers that finds no clauses to copy happens only as written, right after a round 1 that ended at 0 |
| Restart.Run | MAXSATSolverSmp_3.java:93-163 | round `k` ran from `currents[k]`, its workers' results `passes[k]` folded `vbls[k]` into `vbls[k+1]`, whose count is `maxima[k]`, starting from a new solution and the problem's clauses, with the next clauses picked by `FeedForward`; at most 150 rounds; the counts never decrease; the outcome's reduction is the last fold, `bestMax` its count and `bestM` the first round reaching it; the loop ends early only when every clause is satisfied; as written it throws NullPointerException exactly when round 1 ends at 0 and a round with workers follows |
| Restart.Drive | MAXSATSolverSmp_3.java:93-163 | the recorded rounds are a run of the restart loop as written; the driver succeeds exactly when it has no workers or clauses, or the recorded round 1 ends above 0; otherwise it throws NullPointerException at round 2, in particular on an all-satisfying start with workers; on success the outcome is the last fold of at most 150 rounds, with monotone counts, `bestMax` its count and the last round's, `bestM` the first round reaching it, no earlier round at the full count and an early stop only at it, and the reduction variable holding restartable clauses |
| Restart.DriveCorrected | MAXSATSolverSmp_3.java:93-163 | with the feed-forward corrected the driver fails only for fewer than one variable; the recorded rounds are a run of the corrected restart loop and the outcome is its last fold, with monotone counts, `bestM` the first round reaching `bestMax`, no earlier round at the full count, an early stop only at it, and the reduction variable holding restartable clauses |
| Restart.TrueAtStart | MAXSATSolverSmp_3.java:162 | `p cnf 1 1` with the clause `-1` is a valid problem whose all-false start satisfies every clause |
| Restart.NullFeedWitness | MAXSATSolverSmp_3.java:162 | on that problem with one try and one worker the as-written driver throws NullPointerException and the corrected one succeeds |

## Left out

- Input parsing (`getParameters`), argument validation, printing of clauses and statistics, and the intermediate and total time strings are I/O and are not modelled.
- The `MAXSATSolverSeq_*` and `MAXSATSolverSmp_1` drivers are not part of this model. Only the `MAXSATSolverSmp_3` restart loop is modelled.
- Random number generators and seeds are not modelled. Every random draw is an arbitrary value in range, and the `sigma <= 0.3` test is an arbitrary boolean. The 30% noise probability is not modelled.
- PJ2 threads are not modelled. The workers of a round run sequentially in index order, and `stop()` ends the round after the offer that reaches every clause. Interleavings are not modelled, nor a worker that has already started when another stops. On count ties, which solution survives depends on the order, as `SolutionVbls.TieKeepsHolder` shows.
- Time is not modelled: `System.currentTimeMillis`, float seconds and float rounding are out. Times are `real` parameters, and `Update` adds them exactly.
- Java `int` overflow of the iteration and satisfied counters is not modelled. The counts are bounded by `maxTries` and the clause count.
- Exceptions caught and printed inside `Solution.copy`/`update` leave the old clauses. That is modelled as a return value, not as output.
- The `unCompatibleClauses` list of the preserving branch is filled but never read after the commented-out block. It is left out.
- `VariableCount.variable` is dropped. Each tally slot's index is its variable.
- The in-place mutation of the caller's `MAXSATParameters` and of its `Variable`s is not modelled: the searches return no assignment, and the assignments they pass through exist only in the ghost traces (`starts` of the count-based search, `trace` of the incremental one). `MAXSATSolverSmp_3` passes only deep copies to the searches.
- The searches and the driver require a well-formed problem: `clauses.length == noOfClauses`, every name in `[0, noOfVariables]`, and every clause of at least one literal. Java does not check these. A clause array longer than `noOfClauses` does not throw: the count-based search then counts only the first `noOfClauses` clauses (SeesawSearchCountBased.java:130), and the incremental search takes its full exit once `noOfClauses` clauses are accepted (SeesawSearchIncremental.java:98). A shorter array throws ArrayIndexOutOfBoundsException in the count-based count loop. An empty clause makes the count-based search throw at its random literal index (SeesawSearchCountBased.java:81), and the incremental search throws on it in two places. The noise branch throws at its random literal index (SeesawSearchIncremental.java:134-135). The preserving branch tries no flip for an empty clause, so it sends the clause back and then draws a random accepted clause, which throws IllegalArgumentException when the accepted pool is empty (line 236). With a non-empty pool the preserving branch does not throw. The model excludes empty clauses from both searches.
- Restart.Run: the record of each round states every worker result only as a valid solution whose clauses are the problem's, satisfying at least its count (`WorkerResult`). That it is a result the incremental search can report on the deep copy (`Searched`) is stated by `Restart.Round` and `Restart.Work`, and is not carried into the per-round record of `Run`, `Drive` and `DriveCorrected`.
- Incremental.Search: the snapshot is the exact copy taken after the first iteration reaching the best, but its satisfied count is stated only as at least the best, because the best is the accepted pool's size and clauses outside the pool can be satisfied as well.
- Incremental.Solve: reports the best and snapshot of `Incremental.Search`, so the same holds for its `noOfSatisfiedClauses` and clauses.
- CountBased.Solve models the constraining pass corrected to skip `null` tally slots (see Findings); the as-written pass is `CountBased.ConstrainingPassAsWritten`, and the rest of the as-written search after it throws is not modelled.

## Findings

| source | as written | input that shows it | evidently intended | confidence | as-written member | corrected member |
|---|---|---|---|---|---|---|
| MAXSATSolverSmp_3.java:162 | `parameters.clauses = reductionVbl.getSolution().getClauses()` feeds the held clauses forward even when the reduction variable holds none (`null`). That happens after any round whose best count is 0, in particular when the start assignment already satisfies every clause: the incremental search's full-satisfaction exit (SeesawSearchIncremental.java:98-103) comes before its best update (lines 240-246). Round 2's `getDeepCopiedParameters` then dereferences `null` in `extractVariables` (Utilities.java:296). | `p cnf 1 1` with the single clause `-1`, all variables starting false, one try, one worker | restart from the current clauses while the reduction variable holds none | not executed | Restart.Drive | Restart.DriveCorrected |
| SeesawSearchCountBased.java:121 | The constraining pass reads `variableTruthValueCounts[j].trueCount` for every `j` in `1..noOfVariables`, but a slot is only created when some clause names that variable (lines 91-98). A declared variable that no clause names leaves its slot `null`, and the first iteration throws NullPointerException. | `p cnf 2 1` with the single clause `1` | leave a variable that no clause names at its value | not executed | CountBased.ConstrainingPassAsWritten, CountBased.UnusedVariableWitness | CountBased.ConstrainingPass, CountBased.UnnamedKept |

=== FILE: base.dfy ===
/** `null` and thrown exceptions as values: the optional and result types the
    model returns, and the Java exceptions the core can raise. */
module Base {

  /** A nullable reference: `None` stands for Java's `null`. */
  datatype Option<+T> = None | Some(value: T)

  /** The Java exceptions the modelled code can throw. */
  datatype Error =
    | NegativeArraySize      // `new T[k]` with k < 0
    | IndexOutOfBounds       // an array index outside its bounds
    | InvalidLiteralCount    // Clause.setLiterals given an array of the wrong length
    | IllegalArgument        // Solution's constructor given fewer than one variable
    | NullPointer            // a dereference of `null`

  /** Either a value or the exception that was thrown instead. */
  datatype Result<+T> = Success(value: T) | Failure(error: Error)

  function Max(a: int, b: int): int
  {
    if a >= b then a else b
  }
}

=== FILE: clause.dfy ===
/** Clause.java: a fixed-length disjunction of literals. */
module Clauses {
  import opened Base
  import opened Literals

  /** `clauseLength` is fixed at construction; `literals` is the array the
      clause currently holds. */
  datatype Clause = Clause(clauseLength: int, literals: seq<Literal>)

  /** Stands for the `null` entries of a freshly allocated literal array.
      No operation of the model reads it: `setLiterals` replaces the whole
      array before any clause is evaluated. */
  const Unset := Literal(0, false)

  /** A clause whose literal array has its declared length. */
  predicate LengthMatches(c: Clause)
  {
    |c.literals| == c.clauseLength
  }

  /** `new Clause(clauseLength)`: allocates an array of exactly
      `clauseLength` entries; a negative length cannot be allocated. */
  function NewClause(clauseLength: int): (r: Result<Clause>)
    ensures r.Failure? <==> clauseLength < 0
    ensures r.Failure? ==> r.error == NegativeArraySize
    ensures r.Success? ==> r.value.clauseLength == clauseLength && LengthMatches(r.value)
  {
    if clauseLength < 0 then Failure(NegativeArraySize)
    else Success(Clause(clauseLength, seq(clauseLength, _ => Unset)))
  }

  /** `setLiterals`: rejects an array whose length differs from
      `clauseLength` (the clause keeps its old array), otherwise stores it. */
  function SetLiterals(c: Clause, ltrls: seq<Literal>): (r: Result<Clause>)
    ensures r.Failure? <==> |ltrls| != c.clauseLength
    ensures r.Failure? ==> r.error == InvalidLiteralCount
    ensures r.Success? ==> r.value.literals == ltrls && r.value.clauseLength == c.clauseLength
    ensures r.Success? ==> LengthMatches(r.value)
  {
    if |ltrls| != c.clauseLength then Failure(InvalidLiteralCount)
    else Success(c.(literals := ltrls))
  }

  /** Every literal of `c` names a slot of `a`. */
  predicate ReadsWithin(c: Clause, a: Assignment)
  {
    forall k :: 0 <= k < |c.literals| ==> 0 <= c.literals[k].name < |a|
  }

  /** The scan of `isClauseSatisfied` from position `i` on: the first true
      literal answers `true`, running off the end answers `false`. */
  function SatisfiedFrom(lits: seq<Literal>, a: Assignment, i: nat): (r: bool)
    requires i <= |lits|
    requires forall k :: 0 <= k < |lits| ==> 0 <= lits[k].name < |a|
    ensures r <==> exists k :: i <= k < |lits| && Value(lits[k], a)
    decreases |lits| - i
  {
    if i == |lits| then false
    else if lits[i].negated then
      if !a[lits[i].name] then true else SatisfiedFrom(lits, a, i + 1)
    else if a[lits[i].name] then true
    else SatisfiedFrom(lits, a, i + 1)
  }

  /** `isClauseSatisfied`: reads the assignment and changes nothing. */
  function Satisfied(c: Clause, a: Assignment): (r: bool)
    requires ReadsWithin(c, a)
    ensures r <==> exists k :: 0 <= k < |c.literals| && Value(c.literals[k], a)
  {
    SatisfiedFrom(c.literals, a, 0)
  }

  /** A clause with no literals is never satisfied. */
  lemma EmptyClauseUnsatisfied(c: Clause, a: Assignment)
    requires |c.literals| == 0
    ensures !Satisfied(c, a)
  {
  }

  /** Flipping the variable of any literal of an unsatisfied clause makes
      that literal, and so the clause, true. */
  lemma FlipSatisfies(c: Clause, a: Assignment, k: int)
    requires ReadsWithin(c, a)
    requires !Satisfied(c, a)
    requires 0 <= k < |c.literals|
    ensures Satisfied(c, Flip(a, c.literals[k].name))
  {
    assert Value(c.literals[k], Flip(a, c.literals[k].name));
  }

  /** Satisfaction depends only on the slots the clause's literals name. */
  lemma SatisfiedAgree(c: Clause, a: Assignment, b: Assignment)
    requires ReadsWithin(c, a) && ReadsWithin(c, b)
    requires forall k :: 0 <= k < |c.literals| ==> a[c.literals[k].name] == b[c.literals[k].name]
    ensures Satisfied(c, a) == Satisfied(c, b)
  {
    if Satisfied(c, a) {
      var k :| 0 <= k < |c.literals| && Value(c.literals[k], a);
      assert Value(c.literals[k], b);
    }
    if Satisfied(c, b) {
      var k :| 0 <= k < |c.literals| && Value(c.literals[k], b);
      assert Value(c.literals[k], a);
    }
  }
}

=== FILE: count_based.dfy ===
/** SeesawSearchCountBased.java: the count-based Seesaw search.

    Each iteration has an optimization pass, which makes every clause true
    on its own by flipping one variable of each unsatisfied clause and
    tallies how often each variable is seen true and false, then a
    constraining pass, which sets every variable by majority vote, then a
    count of the satisfied clauses with best-so-far tracking. The random
    literal choice is an arbitrary choice in range, so every property below
    holds for every sequence of choices. */
module CountBased {
  import opened Base
  import opened Literals
  import opened Clauses
  import opened Problem
  import opened Utilities
  import opened Solutions

  /** VariableCount.java without its `variable` field: the slot index is
      the variable. */
  datatype VariableCount = VariableCount(trueCount: nat, falseCount: nat)

  /** How many literals of `lits` name `v`. */
  function OccIn(lits: seq<Literal>, v: int): nat
  {
    if |lits| == 0 then 0
    else OccIn(lits[..|lits| - 1], v) + (if lits[|lits| - 1].name == v then 1 else 0)
  }

  /** How many literals of all clauses name `v`, with multiplicity. */
  function Occurrences(cs: seq<Clause>, v: int): nat
  {
    if |cs| == 0 then 0
    else Occurrences(cs[..|cs| - 1], v) + OccIn(cs[|cs| - 1].literals, v)
  }

  /** The tally the optimization pass should reach for `v` on one side:
      clause `j` adds its occurrences of `v` when `v` has value `side` in
      `states[j + 1]`, the state right after clause `j` was processed. */
  function Tallied(cs: seq<Clause>, states: seq<Assignment>, v: int, side: bool): nat
    requires |states| == |cs| + 1
  {
    if |cs| == 0 then 0
    else
      var last := |cs| - 1;
      Tallied(cs[..last], states[..last + 1], v, side) +
      (if 0 <= v < |states[last + 1]| && states[last + 1][v] == side then OccIn(cs[last].literals, v) else 0)
  }

  /** A tally slot: `null` until the variable is first seen. */
  function Counted(t: nat, f: nat): Option<VariableCount>
  {
    if t + f == 0 then None else Some(VariableCount(t, f))
  }

  /** A slot after `c` more sightings of its variable with value `side`. */
  function Add(slot: Option<VariableCount>, side: bool, c: nat): Option<VariableCount>
  {
    if c == 0 then slot
    else
      var vc := if slot.None? then VariableCount(0, 0) else slot.value;
      Some(if side then vc.(trueCount := vc.trueCount + c) else vc.(falseCount := vc.falseCount + c))
  }

  /** Every sighting of `v` is tallied exactly once, on one side or the
      other. */
  lemma {:induction false} TallyCoversOccurrences(cs: seq<Clause>, states: seq<Assignment>, v: int)
    requires |states| == |cs| + 1
    requires 0 <= v && forall i :: 0 <= i < |states| ==> v < |states[i]|
    ensures Tallied(cs, states, v, true) + Tallied(cs, states, v, false) == Occurrences(cs, v)
  {
    if |cs| > 0 {
      var last := |cs| - 1;
      assert 0 <= v < |states[last + 1]|;
      var prefix := states[..last + 1];
      forall i | 0 <= i < |prefix|
        ensures 0 <= v < |prefix[i]|
      {
        assert prefix[i] == states[i];
      }
      TallyCoversOccurrences(cs[..last], prefix, v);
    }
  }

  /** A variable some literal names is counted at least once. */
  lemma {:induction false} OccursCounted(cs: seq<Clause>, v: int)
    requires Occurs(cs, v)
    ensures Occurrences(cs, v) >= 1
  {
    var j, k :| 0 <= j < |cs| && 0 <= k < |cs[j].literals| && cs[j].literals[k].name == v;
    var last := |cs| - 1;
    if j == last {
      OccInCounted(cs[j].literals, k);
    } else {
      assert cs[..last][j] == cs[j];
      OccursCounted(cs[..last], v);
    }
  }

  lemma {:induction false} OccInCounted(lits: seq<Literal>, k: int)
    requires 0 <= k < |lits|
    ensures OccIn(lits, lits[k].name) >= 1
  {
    var last := |lits| - 1;
    if k < last {
      assert lits[..last][k] == lits[k];
      OccInCounted(lits[..last], k);
    }
  }

  /** The inner loop of the optimization pass: records the current value of
      the variable of every literal of one clause. */
  method TallyClause(lits: seq<Literal>, a: Assignment, tally: seq<Option<VariableCount>>)
    returns (tally': seq<Option<VariableCount>>)
    requires |tally| == |a|
    requires forall k :: 0 <= k < |lits| ==> 0 <= lits[k].name < |a|
    ensures |tally'| == |tally|
    ensures forall v :: 0 <= v < |a| ==> tally'[v] == Add(tally[v], a[v], OccIn(lits, v))
  {
    tally' := tally;
    var k := 0;
    while k < |lits|
      invariant 0 <= k <= |lits|
      invariant |tally'| == |tally|
      invariant forall v :: 0 <= v < |a| ==> tally'[v] == Add(tally[v], a[v], OccIn(lits[..k], v))
    {
      var v := lits[k].name;
      var vc := if tally'[v].None? then VariableCount(0, 0) else tally'[v].value;
      if a[v] {
        vc := vc.(trueCount := vc.trueCount + 1);
      } else {
        vc := vc.(falseCount := vc.falseCount + 1);
      }
      tally' := tally'[v := Some(vc)];
      assert lits[..k + 1][..k] == lits[..k];
      k := k + 1;
    }
    assert lits[..k] == lits;
  }

  /** One clause's step of the optimization pass: a satisfied clause leaves
      the state alone; an unsatisfied one flips the variable of one of its
      literals. */
  predicate Step(c: Clause, s: Assignment, s': Assignment)
    requires ReadsWithin(c, s)
  {
    if Satisfied(c, s) then s' == s
    else exists k :: 0 <= k < |c.literals| && s' == Flip(s, c.literals[k].name)
  }

  /** One clause of the optimization pass: an unsatisfied clause gets the
      variable of a randomly chosen literal flipped, then the values of all
      its literals' variables are tallied. */
  method ProcessClause(c: Clause, a: Assignment, tally: seq<Option<VariableCount>>)
    returns (a': Assignment, tally': seq<Option<VariableCount>>)
    requires |tally| == |a|
    requires ReadsWithin(c, a) && |c.literals| >= 1
    ensures |a'| == |a| && ReadsWithin(c, a')
    ensures Step(c, a, a') && Satisfied(c, a')
    ensures |tally'| == |tally|
    ensures forall v :: 0 <= v < |a| ==> tally'[v] == Add(tally[v], a'[v], OccIn(c.literals, v))
  {
    a' := a;
    if !Satisfied(c, a) {
      var k :| 0 <= k < |c.literals|;
      FlipSatisfies(c, a, k);
      a' := Flip(a, c.literals[k].name);
    }
    tally' := TallyClause(c.literals, a', tally);
  }

  /** Adding a clause's sightings to a slot adds them to the tally it counts. */
  lemma AddCounted(t: nat, f: nat, side: bool, c: nat)
    ensures Add(Counted(t, f), side, c) == Counted(t + (if side then c else 0), f + (if side then 0 else c))
  {
  }

  /** `Tallied` over one more clause and its post-step state. */
  lemma TalliedSnoc(cs: seq<Clause>, states: seq<Assignment>, j: int, s: Assignment, v: int, side: bool)
    requires 0 <= j < |cs| && |states| == j + 1
    ensures Tallied(cs[..j + 1], states + [s], v, side) ==
            Tallied(cs[..j], states, v, side) +
            (if 0 <= v < |s| && s[v] == side then OccIn(cs[j].literals, v) else 0)
  {
    assert cs[..j + 1][..j] == cs[..j];
    assert (states + [s])[..j + 1] == states;
  }

  /** Tallying clause `j` in state `s` keeps slot `v` equal to `Tallied`
      over the clauses processed so far. */
  lemma TallyExtendsAt(cs: seq<Clause>, states: seq<Assignment>, j: int, s: Assignment, v: int,
                       slot: Option<VariableCount>, slot': Option<VariableCount>)
    requires 0 <= j < |cs| && |states| == j + 1 && 0 <= v < |s|
    requires slot == Counted(Tallied(cs[..j], states, v, true), Tallied(cs[..j], states, v, false))
    requires slot' == Add(slot, s[v], OccIn(cs[j].literals, v))
    ensures slot' == Counted(Tallied(cs[..j + 1], states + [s], v, true),
                             Tallied(cs[..j + 1], states + [s], v, false))
  {
    TalliedSnoc(cs, states, j, s, v, true);
    TalliedSnoc(cs, states, j, s, v, false);
    AddCounted(Tallied(cs[..j], states, v, true), Tallied(cs[..j], states, v, false), s[v], OccIn(cs[j].literals, v));
  }

  /** The same for every slot at once. */
  lemma TallyExtends(cs: seq<Clause>, states: seq<Assignment>, j: int, s: Assignment,
                     tally: seq<Option<VariableCount>>, tally': seq<Option<VariableCount>>)
    requires 0 <= j < |cs| && |states| == j + 1
    requires |tally| == |s| && |tally'| == |s|
    requires forall v :: 0 <= v < |s| ==>
               tally[v] == Counted(Tallied(cs[..j], states, v, true), Tallied(cs[..j], states, v, false))
    requires forall v :: 0 <= v < |s| ==> tally'[v] == Add(tally[v], s[v], OccIn(cs[j].literals, v))
    ensures forall v :: 0 <= v < |s| ==>
              tally'[v] == Counted(Tallied(cs[..j + 1], states + [s], v, true),
                                   Tallied(cs[..j + 1], states + [s], v, false))
  {
    forall v | 0 <= v < |s|
      ensures tally'[v] == Counted(Tallied(cs[..j + 1], states + [s], v, true),
                                   Tallied(cs[..j + 1], states + [s], v, false))
    {
      TallyExtendsAt(cs, states, j, s, v, tally[v], tally'[v]);
    }
  }

  /** The trace of the optimization pass extended by the state `s` reached
      from its last state by processing clause `j`. */
  lemma TraceSnoc(cs: seq<Clause>, states: seq<Assignment>, j: int, s: Assignment, n: int)
    requires 0 <= j < |cs| && |states| == j + 1 && |s| == n + 1
    requires NamesWithin(cs, n)
    requires forall i :: 0 <= i < |states| ==> |states[i]| == n + 1
    requires forall i :: 0 <= i < j ==> Step(cs[i], states[i], states[i + 1])
    requires forall i :: 0 <= i < j ==> Satisfied(cs[i], states[i + 1])
    requires Step(cs[j], states[j], s) && Satisfied(cs[j], s)
    ensures forall i :: 0 <= i < |states + [s]| ==> |(states + [s])[i]| == n + 1
    ensures forall i :: 0 <= i < j + 1 ==> Step(cs[i], (states + [s])[i], (states + [s])[i + 1])
    ensures forall i :: 0 <= i < j + 1 ==> Satisfied(cs[i], (states + [s])[i + 1])
  {
    var states' := states + [s];
    assert forall i :: 0 <= i <= j ==> states'[i] == states[i];
  }

  /** The optimization pass. `states[j]` is the assignment before clause
      `j` is processed and `states[j + 1]` the one right after; each clause
      is satisfied right after its step, and the tally holds, per variable,
      the sightings on each side as `Tallied` defines them. */
  method OptimizationPass(cs: seq<Clause>, a: Assignment, n: int)
    returns (a': Assignment, tally: seq<Option<VariableCount>>, ghost states: seq<Assignment>)
    requires |a| == n + 1
    requires NamesWithin(cs, n)
    requires forall j :: 0 <= j < |cs| ==> |cs[j].literals| >= 1
    ensures |states| == |cs| + 1 && states[0] == a && states[|cs|] == a'
    ensures forall i :: 0 <= i < |states| ==> |states[i]| == n + 1
    ensures forall j :: 0 <= j < |cs| ==> Step(cs[j], states[j], states[j + 1])
    ensures forall j :: 0 <= j < |cs| ==> Satisfied(cs[j], states[j + 1])
    ensures |tally| == n + 1
    ensures forall v :: 0 <= v <= n ==>
              tally[v] == Counted(Tallied(cs, states, v, true), Tallied(cs, states, v, false))
  {
    a' := a;
    tally := seq(n + 1, _ => None);
    states := [a];
    var j := 0;
    while j < |cs|
      invariant 0 <= j <= |cs|
      invariant |states| == j + 1 && states[0] == a && states[j] == a'
      invariant forall i :: 0 <= i < |states| ==> |states[i]| == n + 1
      invariant forall i :: 0 <= i < j ==> Step(cs[i], states[i], states[i + 1])
      invariant forall i :: 0 <= i < j ==> Satisfied(cs[i], states[i + 1])
      invariant |tally| == n + 1
      invariant forall v :: 0 <= v <= n ==>
                  tally[v] == Counted(Tallied(cs[..j], states, v, true), Tallied(cs[..j], states, v, false))
    {
      assert ReadsWithin(cs[j], a');
      var tally';
      var before := a';
      a', tally' := ProcessClause(cs[j], before, tally);
      assert states[j] == before;
      TallyExtends(cs, states, j, a', tally, tally');
      TraceSnoc(cs, states, j, a', n);
      tally := tally';
      states := states + [a'];
      j := j + 1;
    }
    assert cs[..j] == cs;
  }

  /** The constraining pass, corrected: every variable `1..n` that was
      seen takes the side it was seen on at least as often, ties going to
      `true`; a variable no clause names keeps its value. Slot 0 is not
      voted. */
  method ConstrainingPass(a: Assignment, tally: seq<Option<VariableCount>>) returns (a': Assignment)
    requires |tally| == |a|
    ensures |a'| == |a|
    ensures |a| > 0 ==> a'[0] == a[0]
    ensures forall v :: 1 <= v < |a| && tally[v].Some? ==>
              a'[v] == (tally[v].value.trueCount >= tally[v].value.falseCount)
    ensures forall v :: 1 <= v < |a| && tally[v].None? ==> a'[v] == a[v]
  {
    a' := a;
    var j := 1;
    while j < |a|
      invariant 1 <= j <= |a| || (|a| == 0 && j == 1)
      invariant |a'| == |a|
      invariant forall v :: 0 <= v < |a| && (v == 0 || v >= j) ==> a'[v] == a[v]
      invariant forall v :: 1 <= v < j && v < |a| && tally[v].Some? ==>
                  a'[v] == (tally[v].value.trueCount >= tally[v].value.falseCount)
      invariant forall v :: 1 <= v < j && v < |a| && tally[v].None? ==> a'[v] == a[v]
    {
      if tally[j].Some? {
        a' := a'[j := tally[j].value.trueCount >= tally[j].value.falseCount];
      }
      j := j + 1;
    }
  }

  /** The constraining pass as written: slots `1 ..` are voted in order,
      and the first slot still `null` (a declared variable no clause
      names) throws a NullPointerException. When every slot was filled it
      computes the corrected pass. */
  method ConstrainingPassAsWritten(a: Assignment, tally: seq<Option<VariableCount>>) returns (r: Result<Assignment>)
    requires |tally| == |a|
    ensures r.Failure? <==> exists v :: 1 <= v < |a| && tally[v].None?
    ensures r.Failure? ==> r.error == NullPointer
    ensures r.Success? ==> |r.value| == |a| && (|a| > 0 ==> r.value[0] == a[0])
    ensures r.Success? ==> forall v :: 1 <= v < |a| ==>
              r.value[v] == (tally[v].value.trueCount >= tally[v].value.falseCount)
  {
    var a' := a;
    var j := 1;
    while j < |a|
      invariant 1 <= j <= |a| || (|a| == 0 && j == 1)
      invariant |a'| == |a|
      invariant |a| > 0 ==> a'[0] == a[0]
      invariant forall v :: 1 <= v < j && v < |a| ==> tally[v].Some?
      invariant forall v :: 1 <= v < j && v < |a| ==>
                  a'[v] == (tally[v].value.trueCount >= tally[v].value.falseCount)
    {
      if tally[j].None? {
        return Failure(NullPointer);
      }
      a' := a'[j := tally[j].value.trueCount >= tally[j].value.falseCount];
      j := j + 1;
    }
    r := Success(a');
  }

  /** The vote is a majority vote over all sightings: `v` ends `true` exactly
      when at least half of its occurrences were seen `true`. */
  lemma VoteIsMajority(cs: seq<Clause>, states: seq<Assignment>, v: int, t: nat, f: nat)
    requires |states| == |cs| + 1
    requires 0 <= v && forall i :: 0 <= i < |states| ==> v < |states[i]|
    requires t == Tallied(cs, states, v, true) && f == Tallied(cs, states, v, false)
    ensures (t >= f) <==> 2 * t >= Occurrences(cs, v)
    ensures Occurrences(cs, v) >= 1 ==> Counted(t, f).Some?
  {
    TallyCoversOccurrences(cs, states, v);
  }

  /** The counting loop: the number of clauses `0 .. m-1` satisfied under `a`. */
  method CountPass(cs: seq<Clause>, a: Assignment, m: int) returns (temp: nat)
    requires m == |cs|
    requires Reads(cs, a)
    ensures temp == CountSatisfied(cs, a)
    ensures temp <= m
  {
    temp := 0;
    var j := 0;
    while j < m
      invariant 0 <= j <= m
      invariant temp == CountSatisfied(cs[..j], a)
    {
      assert cs[..j + 1][..j] == cs[..j];
      if Satisfied(cs[j], a) {
        temp := temp + 1;
      }
      j := j + 1;
    }
    assert cs[..j] == cs;
  }

  /** What the count-based search demands of its problem: the clause array
      has `noOfClauses` entries, each a valid clause of at least one literal
      (a random index into an empty clause throws), and every name lies in
      `[0, noOfVariables]`. */
  predicate Ready(p: Parameters)
  {
    var cs := p.formula.clauses;
    && |cs| == p.noOfClauses
    && |p.formula.values| == p.noOfVariables + 1
    && NamesWithin(cs, p.noOfVariables)
    && ClausesValid(cs)
    && (forall j :: 0 <= j < |cs| ==> |cs[j].literals| >= 1)
  }

  /** One iteration from `a`, exactly: `states` traces the optimization
      pass clause by clause, each step leaving a true clause alone and
      flipping one literal's variable of a false one; then every variable
      `1..n` that occurs takes the majority of its sightings, one that does
      not keeps its value, and `temp` is the number of clauses true under
      the result `a'`. */
  ghost predicate Iterated(cs: seq<Clause>, n: int, a: Assignment, states: seq<Assignment>, a': Assignment, temp: nat)
  {
    && |a| == n + 1 && |a'| == n + 1
    && |states| == |cs| + 1 && states[0] == a
    && (forall i :: 0 <= i < |states| ==> |states[i]| == n + 1)
    && (forall j :: 0 <= j < |cs| ==> ReadsWithin(cs[j], states[j]) && Step(cs[j], states[j], states[j + 1]))
    && (n >= 0 ==> a'[0] == states[|cs|][0])
    && (forall v :: 1 <= v <= n && Occurrences(cs, v) == 0 ==> a'[v] == states[|cs|][v])
    && (forall v :: 1 <= v <= n && Occurrences(cs, v) > 0 ==>
          (a'[v] <==> 2 * Tallied(cs, states, v, true) >= Occurrences(cs, v)))
    && Reads(cs, a')
    && temp == CountSatisfied(cs, a')
  }

  /** A variable no clause names has an empty tally slot after the
      optimization pass. */
  lemma UnnamedUncounted(cs: seq<Clause>, states: seq<Assignment>, v: int)
    requires |states| == |cs| + 1
    requires 0 <= v && forall i :: 0 <= i < |states| ==> v < |states[i]|
    requires Occurrences(cs, v) == 0
    ensures Counted(Tallied(cs, states, v, true), Tallied(cs, states, v, false)).None?
  {
    TallyCoversOccurrences(cs, states, v);
  }

  /** One iteration of the search loop: the optimization pass, then the
      vote, then the count. */
  method Iteration(cs: seq<Clause>, a: Assignment, n: int)
    returns (a': Assignment, temp: nat, ghost states: seq<Assignment>)
    requires |a| == n + 1
    requires NamesWithin(cs, n)
    requires forall j :: 0 <= j < |cs| ==> |cs[j].literals| >= 1
    ensures Iterated(cs, n, a, states, a', temp)
    ensures |a'| == n + 1 && temp == CountSatisfied(cs, a')
    ensures forall v :: 1 <= v <= n && Occurrences(cs, v) == 0 ==> a'[v] == a[v]
  {
    var optimized, tally;
    optimized, tally, states := OptimizationPass(cs, a, n);
    forall v | 1 <= v <= n && Occurrences(cs, v) > 0
      ensures tally[v].Some?
      ensures tally[v].value.trueCount >= tally[v].value.falseCount <==> 2 * Tallied(cs, states, v, true) >= Occurrences(cs, v)
    {
      VoteIsMajority(cs, states, v, Tallied(cs, states, v, true), Tallied(cs, states, v, false));
    }
    forall v | 1 <= v <= n && Occurrences(cs, v) == 0
      ensures tally[v].None?
    {
      UnnamedUncounted(cs, states, v);
    }
    forall j | 0 <= j < |cs|
      ensures ReadsWithin(cs[j], states[j])
    {
      assert |states[j]| == n + 1;
    }
    a' := ConstrainingPass(optimized, tally);
    temp := CountPass(cs, a', |cs|);
    forall v | 1 <= v <= n && Occurrences(cs, v) == 0
      ensures a'[v] == a[v]
    {
      UnnamedKept(cs, n, a, states, a', temp, v);
    }
  }

  /** A variable no clause names is never flipped, so it leaves an
      iteration with the value it entered with. */
  lemma {:induction false} UnnamedKept(cs: seq<Clause>, n: int, a: Assignment, states: seq<Assignment>,
                                      a': Assignment, temp: nat, v: int)
    requires Iterated(cs, n, a, states, a', temp)
    requires 1 <= v <= n && Occurrences(cs, v) == 0
    ensures a'[v] == a[v]
  {
    forall j, k | 0 <= j < |cs| && 0 <= k < |cs[j].literals|
      ensures cs[j].literals[k].name != v
    {
      if cs[j].literals[k].name == v {
        OccursCounted(cs, v);
      }
    }
    var j := 0;
    while j < |cs|
      invariant 0 <= j <= |cs|
      invariant states[j][v] == a[v]
    {
      if !Satisfied(cs[j], states[j]) {
        var k :| 0 <= k < |cs[j].literals| && states[j + 1] == Flip(states[j], cs[j].literals[k].name);
      }
      j := j + 1;
    }
  }

  /** `snapshot` is what the search keeps for best count `best`: nothing
      while no iteration satisfied a clause, otherwise a copy of the clauses
      with an assignment that satisfies exactly `best` of them. */
  predicate Keeps(snapshot: Option<Formula>, cs: seq<Clause>, n: int, best: int)
  {
    && (snapshot.None? <==> best == 0)
    && (snapshot.Some? ==>
          && snapshot.value.clauses == cs
          && |snapshot.value.values| == n + 1
          && Wellformed(snapshot.value)
          && CountSatisfied(snapshot.value.clauses, snapshot.value.values) == best)
  }

  /** One iteration followed by the best-so-far update: a snapshot of the
      new state is taken only on a strict improvement. */
  method Advance(cs: seq<Clause>, n: int, a: Assignment, best: nat, snapshot: Option<Formula>)
    returns (a': Assignment, temp: nat, best': nat, snapshot': Option<Formula>, ghost states: seq<Assignment>)
    requires |a| == n + 1
    requires NamesWithin(cs, n) && ClausesValid(cs)
    requires forall j :: 0 <= j < |cs| ==> |cs[j].literals| >= 1
    requires Keeps(snapshot, cs, n, best)
    ensures Iterated(cs, n, a, states, a', temp)
    ensures temp <= |cs|
    ensures best' == (if temp > best then temp else best)
    ensures temp > best ==> snapshot' == Some(Snapshot(cs, a', n))
    ensures temp <= best ==> snapshot' == snapshot
    ensures Keeps(snapshot', cs, n, best')
  {
    a', temp, states := Iteration(cs, a, n);
    best', snapshot' := best, snapshot;
    if temp > best {
      best' := temp;
      snapshot' := Some(Snapshot(cs, a', n));
    }
  }

  /** Iteration `k` runs from `starts[k]` along the optimization-pass
      trace `passes[k]` to `starts[k + 1]` and counts `counts[k]`; the
      first starts from the problem's own assignment. */
  ghost predicate Iterations(p: Parameters, starts: seq<Assignment>, passes: seq<seq<Assignment>>, counts: seq<nat>)
  {
    && |starts| == |counts| + 1 && |passes| == |counts| && starts[0] == p.formula.values
    && (forall k {:trigger passes[k]} :: 0 <= k < |counts| ==>
          Iterated(p.formula.clauses, p.noOfVariables, starts[k], passes[k], starts[k + 1], counts[k]))
  }

  /** `snapshot` is the copy of the clauses under the assignment that
      iteration `k` left, for the first `k` whose count reached `best`. */
  predicate TakenAtFirst(p: Parameters, starts: seq<Assignment>, counts: seq<nat>, best: int, snapshot: Option<Formula>)
    requires Ready(p) && |starts| == |counts| + 1
  {
    forall k :: 0 <= k < |counts| && FirstIndex(counts, best, k) && best > 0 ==>
      |starts[k + 1]| == p.noOfVariables + 1 &&
      snapshot == Some(Snapshot(p.formula.clauses, starts[k + 1], p.noOfVariables))
  }

  /** What the search knows after the iterations so far: `best` is the
      first maximum of their counts, and `snapshot` the copy of the clauses
      taken after the iteration that first reached it, an assignment
      satisfying exactly `best` of them. */
  ghost predicate Traced(p: Parameters, starts: seq<Assignment>, passes: seq<seq<Assignment>>, counts: seq<nat>,
                         best: int, snapshot: Option<Formula>)
    requires Ready(p)
  {
    && Iterations(p, starts, passes, counts)
    && FirstBest(counts, best)
    && Keeps(snapshot, p.formula.clauses, p.noOfVariables, best)
    && TakenAtFirst(p, starts, counts, best, snapshot)
  }

  /** A snapshot replaced exactly on a strict improvement stays the one
      taken at the first maximum. */
  lemma TakenAtFirstSnoc(p: Parameters, starts: seq<Assignment>, counts: seq<nat>, best: nat, snapshot: Option<Formula>,
                         a': Assignment, temp: nat, snapshot': Option<Formula>)
    requires Ready(p) && |starts| == |counts| + 1 && |a'| == p.noOfVariables + 1
    requires FirstBest(counts, best) && TakenAtFirst(p, starts, counts, best, snapshot)
    requires temp > best ==> snapshot' == Some(Snapshot(p.formula.clauses, a', p.noOfVariables))
    requires temp <= best ==> snapshot' == snapshot
    ensures TakenAtFirst(p, starts + [a'], counts + [temp], if temp > best then temp else best, snapshot')
  {
    var starts', counts' := starts + [a'], counts + [temp];
    var best' := if temp > best then temp else best;
    forall k | FirstIndex(counts', best', k) && best' > 0
      ensures |starts'[k + 1]| == p.noOfVariables + 1
      ensures snapshot' == Some(Snapshot(p.formula.clauses, starts'[k + 1], p.noOfVariables))
    {
      FirstIndexSnoc(counts, best, temp, k);
      if k < |counts| {
        assert starts'[k + 1] == starts[k + 1];
      } else {
        assert starts'[k + 1] == a';
      }
    }
  }

  /** One iteration of `Solve`'s loop extends what it knows. */
  lemma TracedSnoc(p: Parameters, starts: seq<Assignment>, passes: seq<seq<Assignment>>, counts: seq<nat>,
                   best: nat, snapshot: Option<Formula>,
                   a': Assignment, states: seq<Assignment>, temp: nat, best': nat, snapshot': Option<Formula>)
    requires Ready(p) && Traced(p, starts, passes, counts, best, snapshot)
    requires Iterated(p.formula.clauses, p.noOfVariables, starts[|counts|], states, a', temp)
    requires best' == (if temp > best then temp else best)
    requires temp > best ==> snapshot' == Some(Snapshot(p.formula.clauses, a', p.noOfVariables))
    requires temp <= best ==> snapshot' == snapshot
    requires Keeps(snapshot', p.formula.clauses, p.noOfVariables, best')
    ensures Traced(p, starts + [a'], passes + [states], counts + [temp], best', snapshot')
  {
    var cs, n := p.formula.clauses, p.noOfVariables;
    IteratedSnoc(cs, n, starts, passes, counts, a', states, temp);
    FirstBestSnoc(counts, best, temp);
    TakenAtFirstSnoc(p, starts, counts, best, snapshot, a', temp, snapshot');
  }

  /** One pass of `Solve`'s loop: an iteration and the best-so-far update,
      recorded in the traces. */
  method Record(p: Parameters, a: Assignment, best: nat, snapshot: Option<Formula>,
                ghost starts: seq<Assignment>, ghost passes: seq<seq<Assignment>>, ghost counts: seq<nat>)
    returns (a': Assignment, temp: nat, best': nat, snapshot': Option<Formula>,
             ghost starts': seq<Assignment>, ghost passes': seq<seq<Assignment>>, ghost counts': seq<nat>)
    requires Ready(p) && |a| == p.noOfVariables + 1
    requires Traced(p, starts, passes, counts, best, snapshot) && starts[|counts|] == a
    ensures |a'| == p.noOfVariables + 1 && counts' == counts + [temp]
    ensures Traced(p, starts', passes', counts', best', snapshot') && starts'[|counts'|] == a'
    ensures best' == (if temp > best then temp else best)
  {
    ghost var states;
    a', temp, best', snapshot', states := Advance(p.formula.clauses, p.noOfVariables, a, best, snapshot);
    TracedSnoc(p, starts, passes, counts, best, snapshot, a', states, temp, best', snapshot');
    starts', passes', counts' := starts + [a'], passes + [states], counts + [temp];
  }

  /** `solveMAXSAT`. Iteration `i` runs from `starts[i]` along the
      optimization-pass trace `passes[i]` to `starts[i + 1]` and counts
      `counts[i]`; the first iteration starts from the problem's own
      assignment. The result's count is the running maximum of the counts,
      its clauses a copy satisfying exactly that many, taken when the
      maximum was first reached. The
      search stops early only on an iteration that satisfies every clause.
      The wall clock is the parameter `elapsed`. */
  method Solve(p: Parameters, maxTries: int, elapsed: real)
    returns (r: Result<Solution>, ghost counts: seq<nat>, ghost starts: seq<Assignment>, ghost passes: seq<seq<Assignment>>)
    requires Ready(p)
    ensures r.Failure? <==> p.noOfVariables < 1
    ensures r.Failure? ==> r.error == IllegalArgument
    ensures Iterations(p, starts, passes, counts)
    ensures r.Success? ==> Valid(r.value) && r.value.noOfVariables == p.noOfVariables && r.value.time == elapsed
    ensures r.Success? ==> r.value.noOfIterations == |counts| && |counts| <= Max(0, maxTries)
    ensures r.Success? && maxTries <= 0 ==>
              r.value.noOfIterations == 0 && r.value.noOfSatisfiedClauses == 0 && r.value.clauses.None?
    ensures r.Success? ==> Traced(p, starts, passes, counts, r.value.noOfSatisfiedClauses, r.value.clauses)
    ensures |counts| < maxTries ==> |counts| > 0 && counts[|counts| - 1] == p.noOfClauses > 0
    ensures forall i :: 0 <= i < |counts| - 1 ==> counts[i] < p.noOfClauses || p.noOfClauses == 0
  {
    var n := p.noOfVariables;
    var cs := p.formula.clauses;
    var a := p.formula.values;
    var noOfIterations := 0;
    var best: nat := 0;
    var snapshot: Option<Formula> := None;
    counts, starts, passes := [], [a], [];
    var i := 0;
    while i < maxTries
      invariant 0 <= i <= Max(0, maxTries)
      invariant noOfIterations == i == |counts|
      invariant Traced(p, starts, passes, counts, best, snapshot) && starts[i] == a
      invariant |a| == n + 1
      invariant forall k :: 0 <= k < |counts| ==> counts[k] < p.noOfClauses || p.noOfClauses == 0
    {
      noOfIterations := noOfIterations + 1;
      var temp, best';
      a, temp, best', snapshot, starts, passes, counts := Record(p, a, best, snapshot, starts, passes, counts);
      var improved := temp > best;
      best := best';
      i := i + 1;
      if improved && temp == p.noOfClauses {
        break;
      }
    }
    var created := NewSolution(n);
    if created.Failure? {
      return Failure(created.error), counts, starts, passes;
    }
    r := Success(created.value.(noOfIterations := noOfIterations, noOfSatisfiedClauses := best,
                              time := elapsed, clauses := snapshot));
  }

  /** The iteration traces of `Solve`'s loop extended by one iteration. */
  lemma IteratedSnoc(cs: seq<Clause>, n: int, starts: seq<Assignment>, passes: seq<seq<Assignment>>, counts: seq<nat>,
                     a': Assignment, states: seq<Assignment>, temp: nat)
    requires |starts| == |counts| + 1 && |passes| == |counts|
    requires forall k {:trigger passes[k]} :: 0 <= k < |counts| ==> Iterated(cs, n, starts[k], passes[k], starts[k + 1], counts[k])
    requires Iterated(cs, n, starts[|counts|], states, a', temp)
    ensures var starts', passes', counts' := starts + [a'], passes + [states], counts + [temp];
            forall k {:trigger passes'[k]} :: 0 <= k < |counts'| ==> Iterated(cs, n, starts'[k], passes'[k], starts'[k + 1], counts'[k])
  {
    var starts', passes', counts' := starts + [a'], passes + [states], counts + [temp];
    forall k | 0 <= k < |counts'|
      ensures Iterated(cs, n, starts'[k], passes'[k], starts'[k + 1], counts'[k])
    {
      if k < |counts| {
        assert starts'[k] == starts[k] && starts'[k + 1] == starts[k + 1];
        assert passes'[k] == passes[k] && counts'[k] == counts[k];
      }
    }
  }

  /** `p cnf 2 1` with the single clause `1`: variable 2 is declared but
      no clause names it. */
  function UnusedVariable(): (p: Parameters)
    ensures Ready(p) && p.noOfVariables == 2 && Occurrences(p.formula.clauses, 2) == 0
  {
    var c := Clause(1, [Literal(1, false)]);
    assert [c][..0] == [];
    assert c.literals[..0] == [];
    Parameters(2, 1, Formula([c], [false, false, false]))
  }

  /** On `UnusedVariable` the as-written constraining pass of the first
      iteration throws, whatever the random draws, where the corrected one
      keeps variable 2 at its value. */
  method UnusedVariableWitness() returns (asWritten: Result<Assignment>, corrected: Assignment)
    ensures asWritten == Failure(NullPointer)
    ensures |corrected| == 3 && corrected[2] == false
  {
    var p := UnusedVariable();
    var cs, n := p.formula.clauses, p.noOfVariables;
    var optimized, tally, states := OptimizationPass(cs, p.formula.values, n);
    UnnamedUncounted(cs, states, 2);
    asWritten := ConstrainingPassAsWritten(optimized, tally);
    corrected := ConstrainingPass(optimized, tally);
    var a', temp;
    a', temp, states := Iteration(cs, p.formula.values, n);
    UnnamedKept(cs, n, p.formula.values, states, a', temp, 2);
  }
}

=== FILE: incremental.dfy ===
/** SeesawSearchIncremental.java: the incremental Seesaw search.

    Clauses move between two pools: the unexplored clauses and the accepted
    ("true") clauses. The optimization phase moves randomly picked clauses
    from the unexplored pool to the accepted one until it meets a false
    clause. The constraining phase then either flips a random variable of
    that clause and sends back every accepted clause the flip broke (the
    noise branch), or looks for a variable of the false clause whose flip
    keeps every accepted clause true, and when none exists sends the false
    clause and one random accepted clause back (the preserving branch).

    Pools hold clause indices into the clause array. Random picks are
    arbitrary choices in range and the `sigma <= 0.3` test is an arbitrary
    boolean, so every property below holds for every sequence of random
    draws. */
module Incremental {
  import opened Base
  import opened Literals
  import opened Clauses
  import opened Problem
  import opened Utilities
  import opened Solutions

  /** Every entry of `pool` indexes one of `m` clauses. */
  predicate InRange(pool: seq<nat>, m: int)
  {
    forall i :: 0 <= i < |pool| ==> pool[i] < m
  }

  /** Every clause of `pool` is true under `a`. */
  predicate AllHold(cs: seq<Clause>, a: Assignment, pool: seq<nat>)
    requires Reads(cs, a) && InRange(pool, |cs|)
  {
    forall i :: 0 <= i < |pool| ==> Satisfied(cs[pool[i]], a)
  }

  /** The clause a phase has taken out of the pools and not yet put back. */
  function Pending(conflict: Option<nat>): multiset<nat>
  {
    if conflict.Some? then multiset{conflict.value} else multiset{}
  }

  /** `LinkedList.remove(index)`: the list without its `index`-th entry. */
  function RemoveAt(s: seq<nat>, index: int): (r: seq<nat>)
    requires 0 <= index < |s|
    ensures |r| == |s| - 1
    ensures multiset(r) + multiset{s[index]} == multiset(s)
    ensures forall i :: 0 <= i < |r| ==> r[i] == (if i < index then s[i] else s[i + 1])
  {
    assert s == s[..index] + [s[index]] + s[index + 1..];
    s[..index] + s[index + 1..]
  }

  /** An assignment of the same length reads the same clauses. */
  lemma ReadsKept(cs: seq<Clause>, a: Assignment, b: Assignment)
    requires Reads(cs, a) && |a| == |b|
    ensures Reads(cs, b)
  {
  }

  /** The optimization phase: draws clauses from the unexplored pool and
      accepts them while they are true. It stops with a conflict, a drawn
      false clause that is in neither pool, or with the unexplored pool
      empty. The accepted pool only grows, at its end, by clauses that came
      from the unexplored pool, and the assignment is not touched. */
  method OptimizationPhase(cs: seq<Clause>, a: Assignment, unexplored: seq<nat>, accepted: seq<nat>)
    returns (unexplored': seq<nat>, accepted': seq<nat>, conflict: Option<nat>)
    requires Reads(cs, a) && InRange(unexplored, |cs|) && InRange(accepted, |cs|)
    requires AllHold(cs, a, accepted)
    ensures InRange(unexplored', |cs|) && InRange(accepted', |cs|)
    ensures |accepted| <= |accepted'| && accepted'[..|accepted|] == accepted
    ensures AllHold(cs, a, accepted')
    ensures multiset(unexplored') + multiset(accepted'[|accepted|..]) + Pending(conflict) == multiset(unexplored)
    ensures conflict.None? ==> |unexplored'| == 0
    ensures conflict.Some? ==> conflict.value < |cs| && !Satisfied(cs[conflict.value], a)
  {
    unexplored', accepted' := unexplored, accepted;
    conflict := None;
    while |unexplored'| > 0
      invariant InRange(unexplored', |cs|) && InRange(accepted', |cs|)
      invariant |accepted| <= |accepted'| && accepted'[..|accepted|] == accepted
      invariant AllHold(cs, a, accepted')
      invariant multiset(unexplored') + multiset(accepted'[|accepted|..]) == multiset(unexplored)
      decreases |unexplored'|
    {
      var index :| 0 <= index < |unexplored'|;
      var c := unexplored'[index];
      var rest := RemoveAt(unexplored', index);
      assert multiset(rest) + multiset{c} == multiset(unexplored');
      if Satisfied(cs[c], a) {
        assert (accepted' + [c])[|accepted|..] == accepted'[|accepted|..] + [c];
        assert (accepted' + [c])[..|accepted|] == accepted'[..|accepted|];
        unexplored', accepted' := rest, accepted' + [c];
      } else {
        unexplored', conflict := rest, Some(c);
        return;
      }
    }
  }

  /** The partition the noise branch's walk produces: the clauses of
      `pool` still true under `a`, and those now false, each in pool order. */
  function Split(cs: seq<Clause>, a: Assignment, pool: seq<nat>): (r: (seq<nat>, seq<nat>))
    requires Reads(cs, a) && InRange(pool, |cs|)
    ensures InRange(r.0, |cs|) && InRange(r.1, |cs|)
    ensures multiset(r.0) + multiset(r.1) == multiset(pool)
    ensures AllHold(cs, a, r.0)
    ensures forall i :: 0 <= i < |r.1| ==> !Satisfied(cs[r.1[i]], a)
  {
    if |pool| == 0 then ([], [])
    else
      var init := pool[..|pool| - 1];
      var c := pool[|pool| - 1];
      assert pool == init + [c];
      var (kept, evicted) := Split(cs, a, init);
      if Satisfied(cs[c], a) then
        HoldsSnoc(cs, a, kept, c);
        (kept + [c], evicted)
      else
        FailsSnoc(cs, a, evicted, c);
        (kept, evicted + [c])
  }

  /** A true clause appended to a pool of true clauses keeps it so. */
  lemma HoldsSnoc(cs: seq<Clause>, a: Assignment, pool: seq<nat>, c: nat)
    requires Reads(cs, a) && InRange(pool, |cs|) && AllHold(cs, a, pool)
    requires c < |cs| && Satisfied(cs[c], a)
    ensures InRange(pool + [c], |cs|) && AllHold(cs, a, pool + [c])
  {
    assert forall i :: 0 <= i < |pool| ==> (pool + [c])[i] == pool[i];
  }

  /** A false clause appended to a pool of false clauses keeps it so. */
  lemma FailsSnoc(cs: seq<Clause>, a: Assignment, pool: seq<nat>, c: nat)
    requires Reads(cs, a) && InRange(pool, |cs|) && (forall i :: 0 <= i < |pool| ==> !Satisfied(cs[pool[i]], a))
    requires c < |cs| && !Satisfied(cs[c], a)
    ensures InRange(pool + [c], |cs|) && forall i :: 0 <= i < |pool| + 1 ==> !Satisfied(cs[(pool + [c])[i]], a)
  {
    assert forall i :: 0 <= i < |pool| ==> (pool + [c])[i] == pool[i];
  }

  /** The iterator walk of the noise branch: every accepted clause that is
      now false is sent back, in order; the true ones stay. */
  method Evict(cs: seq<Clause>, a: Assignment, pool: seq<nat>) returns (kept: seq<nat>, evicted: seq<nat>)
    requires Reads(cs, a) && InRange(pool, |cs|)
    ensures (kept, evicted) == Split(cs, a, pool)
  {
    kept, evicted := [], [];
    var i := 0;
    while i < |pool|
      invariant 0 <= i <= |pool|
      invariant (kept, evicted) == Split(cs, a, pool[..i])
    {
      var c := pool[i];
      assert pool[..i + 1][..i] == pool[..i];
      if Satisfied(cs[c], a) {
        kept := kept + [c];
      } else {
        evicted := evicted + [c];
      }
      i := i + 1;
    }
    assert pool[..i] == pool;
  }

  /** The inner iterator walk of the preserving branch: the position of the
      first clause of `pool` that is false under `a`, if any. */
  method FirstBroken(cs: seq<Clause>, a: Assignment, pool: seq<nat>) returns (broken: Option<nat>)
    requires Reads(cs, a) && InRange(pool, |cs|)
    ensures broken.None? <==> AllHold(cs, a, pool)
    ensures broken.Some? ==>
              && broken.value < |pool|
              && !Satisfied(cs[pool[broken.value]], a)
              && forall i :: 0 <= i < broken.value ==> Satisfied(cs[pool[i]], a)
  {
    var i := 0;
    while i < |pool|
      invariant 0 <= i <= |pool|
      invariant forall k :: 0 <= k < i ==> Satisfied(cs[pool[k]], a)
    {
      if !Satisfied(cs[pool[i]], a) {
        return Some(i);
      }
      i := i + 1;
    }
    return None;
  }

  /** Flipping variable `v` keeps every clause of `pool` true. */
  predicate Preserves(cs: seq<Clause>, a: Assignment, pool: seq<nat>, v: int)
    requires Reads(cs, a) && InRange(pool, |cs|)
  {
    0 <= v < |a| && AllHold(cs, Flip(a, v), pool)
  }

  /** The flip search of the preserving branch: tries the variables of the
      false clause `cs[f]` in literal order and keeps the first flip under
      which every accepted clause stays true, undoing the others. With
      `chosen` the literal whose flip was kept, the false clause is true
      afterwards; without, no single flip of its variables keeps the
      accepted clauses true, the assignment is unchanged, and (since the
      empty pool would have accepted the first flip) some clause was
      accepted. */
  method PreservingFlip(cs: seq<Clause>, a: Assignment, accepted: seq<nat>, f: nat)
    returns (a': Assignment, chosen: Option<nat>)
    requires Reads(cs, a) && InRange(accepted, |cs|)
    requires f < |cs| && !Satisfied(cs[f], a) && |cs[f].literals| >= 1
    ensures |a'| == |a| && Reads(cs, a')
    ensures chosen.Some? ==>
              && chosen.value < |cs[f].literals|
              && a' == Flip(a, cs[f].literals[chosen.value].name)
              && AllHold(cs, a', accepted)
              && Satisfied(cs[f], a')
    ensures chosen.None? ==> a' == a && |accepted| > 0
    ensures forall j :: 0 <= j < |cs[f].literals| && (chosen.None? || j < chosen.value) ==>
              var b := Flip(a, cs[f].literals[j].name);
              Reads(cs, b) && !AllHold(cs, b, accepted)
  {
    var lits := cs[f].literals;
    a' := a;
    chosen := None;
    var j := 0;
    while j < |lits|
      invariant 0 <= j <= |lits|
      invariant forall j' :: 0 <= j' < j ==>
                  var b := Flip(a, lits[j'].name);
                  Reads(cs, b) && !AllHold(cs, b, accepted)
    {
      var b := Flip(a, lits[j].name);
      ReadsKept(cs, a, b);
      var broken := FirstBroken(cs, b, accepted);
      if broken.None? {
        FlipSatisfies(cs[f], a, j);
        a', chosen := b, Some(j);
        return;
      }
      j := j + 1;
    }
    ReadsKept(cs, a, a);
  }

  /** The noise branch: flips the variable of a random literal of the false
      clause `cs[f]`, accepts `f`, and sends back every accepted clause the
      flip made false, at the end of the unexplored pool. */
  method NoiseStep(cs: seq<Clause>, a: Assignment, unexplored: seq<nat>, accepted: seq<nat>, f: nat)
    returns (a': Assignment, unexplored': seq<nat>, accepted': seq<nat>)
    requires Reads(cs, a) && InRange(unexplored, |cs|) && InRange(accepted, |cs|)
    requires f < |cs| && !Satisfied(cs[f], a) && |cs[f].literals| >= 1
    ensures |a'| == |a| && Reads(cs, a')
    ensures exists k :: 0 <= k < |cs[f].literals| && a' == Flip(a, cs[f].literals[k].name)
    ensures InRange(unexplored', |cs|) && InRange(accepted', |cs|)
    ensures AllHold(cs, a', accepted') && f in accepted'
    ensures |unexplored'| >= |unexplored| && unexplored'[..|unexplored|] == unexplored
    ensures forall i :: |unexplored| <= i < |unexplored'| ==> !Satisfied(cs[unexplored'[i]], a')
    ensures multiset(unexplored') + multiset(accepted') == multiset(unexplored) + multiset(accepted) + multiset{f}
    ensures InRange(accepted + [f], |cs|)
    ensures accepted' == Split(cs, a', accepted + [f]).0 && unexplored' == unexplored + Split(cs, a', accepted + [f]).1
    ensures Noised(cs, a, unexplored, accepted, f, State(a', unexplored', accepted'))
  {
    var k :| 0 <= k < |cs[f].literals|;
    a' := Flip(a, cs[f].literals[k].name);
    ReadsKept(cs, a, a');
    FlipSatisfies(cs[f], a, k);
    NoiseKeeps(cs, a', unexplored, accepted, f);
    var evicted;
    accepted', evicted := Evict(cs, a', accepted + [f]);
    unexplored' := unexplored + evicted;
  }

  /** The bookkeeping of the noise branch: with `f` true after the flip,
      the walk over the accepted clauses and `f` keeps `f`, and appending
      the clauses it sends back to the unexplored pool loses and adds no
      clause. */
  lemma NoiseKeeps(cs: seq<Clause>, a': Assignment, unexplored: seq<nat>, accepted: seq<nat>, f: nat)
    requires Reads(cs, a') && InRange(unexplored, |cs|) && InRange(accepted, |cs|)
    requires f < |cs| && Satisfied(cs[f], a')
    ensures InRange(accepted + [f], |cs|)
    ensures var (kept, evicted) := Split(cs, a', accepted + [f]);
            && f in kept
            && InRange(unexplored + evicted, |cs|)
            && (unexplored + evicted)[..|unexplored|] == unexplored
            && multiset(unexplored + evicted) + multiset(kept) == multiset(unexplored) + multiset(accepted) + multiset{f}
  {
    var (kept, evicted) := Split(cs, a', accepted + [f]);
    assert f in multiset(accepted + [f]);
    assert f !in evicted;
    assert (unexplored + evicted)[..|unexplored|] == unexplored;
    assert multiset(accepted + [f]) == multiset(accepted) + multiset{f};
  }

  /** The preserving branch: accepts the false clause `cs[f]` after the
      first flip that keeps every accepted clause true; failing that, sends
      `f` back to the unexplored pool, followed by one randomly chosen
      accepted clause. */
  method PreservingStep(cs: seq<Clause>, a: Assignment, unexplored: seq<nat>, accepted: seq<nat>, f: nat)
    returns (a': Assignment, unexplored': seq<nat>, accepted': seq<nat>, chosen: Option<nat>)
    requires Reads(cs, a) && InRange(unexplored, |cs|) && InRange(accepted, |cs|)
    requires AllHold(cs, a, accepted)
    requires f < |cs| && !Satisfied(cs[f], a) && |cs[f].literals| >= 1
    ensures |a'| == |a| && Reads(cs, a')
    ensures InRange(unexplored', |cs|) && InRange(accepted', |cs|)
    ensures AllHold(cs, a', accepted')
    ensures chosen.Some? ==>
              && chosen.value < |cs[f].literals|
              && a' == Flip(a, cs[f].literals[chosen.value].name)
              && unexplored' == unexplored && accepted' == accepted + [f]
    ensures chosen.Some? ==> forall j :: 0 <= j < chosen.value ==> !Preserves(cs, a, accepted, cs[f].literals[j].name)
    ensures chosen.None? ==>
              && a' == a && |accepted'| == |accepted| - 1
              && |unexplored'| == |unexplored| + 2
              && unexplored'[..|unexplored| + 1] == unexplored + [f]
              && unexplored'[|unexplored| + 1] in accepted
    ensures chosen.None? ==>
              && (forall j :: 0 <= j < |cs[f].literals| ==> !Preserves(cs, a, accepted, cs[f].literals[j].name))
              && exists e :: 0 <= e < |accepted| && accepted' == RemoveAt(accepted, e) &&
                             unexplored' == unexplored + [f] + [accepted[e]]
    ensures multiset(unexplored') + multiset(accepted') == multiset(unexplored) + multiset(accepted) + multiset{f}
    ensures Preserved(cs, a, unexplored, accepted, f, State(a', unexplored', accepted'))
  {
    a', chosen := PreservingFlip(cs, a, accepted, f);
    if chosen.Some? {
      AcceptKeeps(cs, a', accepted, f);
      unexplored', accepted' := unexplored, accepted + [f];
      assert Preserves(cs, a, accepted, cs[f].literals[chosen.value].name);
    } else {
      var e :| 0 <= e < |accepted|;
      SendBackKeeps(cs, a, unexplored, accepted, f, e);
      accepted' := RemoveAt(accepted, e);
      unexplored' := unexplored + [f] + [accepted[e]];
      assert State(a', unexplored', accepted') == State(a, unexplored + [f] + [accepted[e]], RemoveAt(accepted, e));
    }
  }

  /** Accepting a clause true under `a` keeps every accepted clause true. */
  lemma AcceptKeeps(cs: seq<Clause>, a: Assignment, accepted: seq<nat>, f: nat)
    requires Reads(cs, a) && InRange(accepted, |cs|) && AllHold(cs, a, accepted)
    requires f < |cs| && Satisfied(cs[f], a)
    ensures InRange(accepted + [f], |cs|) && AllHold(cs, a, accepted + [f])
    ensures multiset(accepted + [f]) == multiset(accepted) + multiset{f}
  {
  }

  /** Sending `f` and the accepted clause at `e` back to the unexplored
      pool keeps the pools in range, the rest accepted true, and the clauses
      accounted for. */
  lemma SendBackKeeps(cs: seq<Clause>, a: Assignment, unexplored: seq<nat>, accepted: seq<nat>, f: nat, e: int)
    requires Reads(cs, a) && InRange(unexplored, |cs|) && InRange(accepted, |cs|)
    requires AllHold(cs, a, accepted) && f < |cs| && 0 <= e < |accepted|
    ensures var accepted', unexplored' := RemoveAt(accepted, e), unexplored + [f] + [accepted[e]];
            && InRange(unexplored', |cs|) && InRange(accepted', |cs|)
            && AllHold(cs, a, accepted')
            && unexplored'[..|unexplored| + 1] == unexplored + [f]
            && multiset(unexplored') + multiset(accepted') == multiset(unexplored) + multiset(accepted) + multiset{f}
  {
    var accepted', unexplored' := RemoveAt(accepted, e), unexplored + [f] + [accepted[e]];
    assert unexplored'[..|unexplored| + 1] == unexplored + [f];
    assert multiset(unexplored') == multiset(unexplored) + multiset{f} + multiset{accepted[e]};
  }

  /** What the incremental search demands of its problem: the clause array
      has `noOfClauses` entries, each a valid clause of at least one literal
      (a random index into an empty false clause throws), and every name
      lies in `[0, noOfVariables]`. */
  predicate Ready(p: Parameters)
  {
    var cs := p.formula.clauses;
    && |cs| == p.noOfClauses
    && |p.formula.values| == p.noOfVariables + 1
    && NamesWithin(cs, p.noOfVariables)
    && ClausesValid(cs)
    && (forall j :: 0 <= j < |cs| ==> |cs[j].literals| >= 1)
  }

  /** What the search state keeps between iterations: the two pools split
      the clause indices `0 .. m-1` between them, and every accepted clause
      is true under the current assignment. */
  predicate Pools(cs: seq<Clause>, a: Assignment, unexplored: seq<nat>, accepted: seq<nat>)
  {
    && Reads(cs, a)
    && InRange(unexplored, |cs|) && InRange(accepted, |cs|)
    && multiset(unexplored) + multiset(accepted) == multiset(Range(|cs|))
    && AllHold(cs, a, accepted)
  }

  /** The accepted clauses are distinct clauses, all true, so a pool of
      size `|accepted|` never claims more than the assignment satisfies. */
  lemma AcceptedBound(cs: seq<Clause>, a: Assignment, unexplored: seq<nat>, accepted: seq<nat>)
    requires Pools(cs, a, unexplored, accepted)
    ensures |accepted| <= CountSatisfied(cs, a)
  {
    assert multiset(accepted) <= multiset(Range(|cs|));
    SubPoolDistinct(accepted, |cs|);
    DistinctSatisfiedBound(cs, a, accepted);
  }

  /** The search state between iterations: the assignment and the two
      pools. */
  datatype State = State(values: Assignment, unexplored: seq<nat>, accepted: seq<nat>)

  /** The optimization phase from `s` stopped at the false clause `f`: the
      accepted pool grew, at its end, by true clauses drawn from the
      unexplored pool, `explored` is what was left undrawn, and the
      assignment is unchanged. */
  ghost predicate Explored(cs: seq<Clause>, s: State, explored: seq<nat>, grown: seq<nat>, f: nat)
  {
    && Reads(cs, s.values) && InRange(explored, |cs|) && InRange(grown, |cs|)
    && |s.accepted| <= |grown| && grown[..|s.accepted|] == s.accepted
    && AllHold(cs, s.values, grown)
    && f < |cs| && !Satisfied(cs[f], s.values)
    && multiset(explored) + multiset(grown[|s.accepted|..]) + multiset{f} == multiset(s.unexplored)
  }

  /** The noise branch took `t` from the assignment `a`, the pools
      `explored`/`grown` and the false clause `f`: one literal's variable
      of `f` is flipped, `f` is accepted, and the accepted clauses the flip
      made false move, in order, to the end of the unexplored pool. */
  ghost predicate Noised(cs: seq<Clause>, a: Assignment, explored: seq<nat>, grown: seq<nat>, f: nat, t: State)
    requires f < |cs|
  {
    exists k :: 0 <= k < |cs[f].literals| && 0 <= cs[f].literals[k].name < |a| &&
                t.values == Flip(a, cs[f].literals[k].name) &&
                Reads(cs, t.values) && InRange(grown + [f], |cs|) &&
                t.accepted == Split(cs, t.values, grown + [f]).0 &&
                t.unexplored == explored + Split(cs, t.values, grown + [f]).1
  }

  /** The preserving branch took `t` from the same: either the first
      literal of `f`, in order, whose flip keeps every accepted clause true
      is flipped and `f` accepted, or no such flip exists and `f` and one
      accepted clause go back to the unexplored pool with the assignment
      unchanged. */
  ghost predicate Preserved(cs: seq<Clause>, a: Assignment, explored: seq<nat>, grown: seq<nat>, f: nat, t: State)
    requires Reads(cs, a) && InRange(grown, |cs|) && f < |cs|
  {
    var lits := cs[f].literals;
    || (exists j :: 0 <= j < |lits| && Preserves(cs, a, grown, lits[j].name) &&
                    (forall j' :: 0 <= j' < j ==> !Preserves(cs, a, grown, lits[j'].name)) &&
                    t == State(Flip(a, lits[j].name), explored, grown + [f]))
    || (&& (forall j :: 0 <= j < |lits| ==> !Preserves(cs, a, grown, lits[j].name))
        && exists e :: 0 <= e < |grown| && t == State(a, explored + [f] + [grown[e]], RemoveAt(grown, e)))
  }

  /** One iteration that reached the constraining phase took the state
      `s` to `t`: an optimization phase that stopped at a false clause,
      then the noise or the preserving branch. */
  ghost predicate Iterated(cs: seq<Clause>, s: State, t: State)
  {
    exists explored: seq<nat>, grown: seq<nat>, f: nat ::
      Explored(cs, s, explored, grown, f) &&
      (Noised(cs, s.values, explored, grown, f, t) || Preserved(cs, s.values, explored, grown, f, t))
  }

  /** The constraining phase on the conflict `f`: whichever branch the
      random draw picks, the pools again split all clauses and the accepted
      clauses are all true. */
  method ConstrainingPhase(cs: seq<Clause>, a: Assignment, unexplored: seq<nat>, accepted: seq<nat>, f: nat)
    returns (a': Assignment, unexplored': seq<nat>, accepted': seq<nat>)
    requires Reads(cs, a) && InRange(unexplored, |cs|) && InRange(accepted, |cs|)
    requires AllHold(cs, a, accepted)
    requires multiset(unexplored) + multiset(accepted) + multiset{f} == multiset(Range(|cs|))
    requires f < |cs| && !Satisfied(cs[f], a) && |cs[f].literals| >= 1
    ensures |a'| == |a|
    ensures Pools(cs, a', unexplored', accepted')
    ensures Noised(cs, a, unexplored, accepted, f, State(a', unexplored', accepted')) ||
            Preserved(cs, a, unexplored, accepted, f, State(a', unexplored', accepted'))
  {
    var noise: bool :| true;
    if noise {
      a', unexplored', accepted' := NoiseStep(cs, a, unexplored, accepted, f);
    } else {
      var chosen;
      a', unexplored', accepted', chosen := PreservingStep(cs, a, unexplored, accepted, f);
    }
  }

  /** One iteration: the optimization phase, the full-satisfaction exit,
      then the constraining phase. `full` is the exit: the accepted pool
      reached `noOfClauses`, every clause is true, and nothing else moves.
      An iteration goes on to the constraining phase only when the
      assignment it started from leaves some clause false. */
  method Iterate(cs: seq<Clause>, noOfClauses: int, a: Assignment, unexplored: seq<nat>, accepted: seq<nat>)
    returns (full: bool, a': Assignment, unexplored': seq<nat>, accepted': seq<nat>)
    requires |cs| == noOfClauses
    requires forall j :: 0 <= j < |cs| ==> |cs[j].literals| >= 1
    requires Pools(cs, a, unexplored, accepted)
    ensures |a'| == |a| && Pools(cs, a', unexplored', accepted')
    ensures full ==> a' == a && AllSatisfied(cs, a) && |accepted'| == noOfClauses
    ensures !full ==> !AllSatisfied(cs, a)
    ensures !full ==> Iterated(cs, State(a, unexplored, accepted), State(a', unexplored', accepted'))
    ensures |accepted'| <= CountSatisfied(cs, a')
  {
    var explored, grown, conflict := OptimizationPhase(cs, a, unexplored, accepted);
    assert grown == accepted + grown[|accepted|..];
    assert multiset(explored) + multiset(grown) + Pending(conflict) == multiset(Range(|cs|));
    if |grown| == noOfClauses {
      AllAccepted(cs, a, explored, grown, conflict);
      full, a', unexplored', accepted' := true, a, explored, grown;
      return;
    }
    if conflict.None? {
      assert false;
    }
    full := false;
    a', unexplored', accepted' := ConstrainingPhase(cs, a, explored, grown, conflict.value);
    assert Explored(cs, State(a, unexplored, accepted), explored, grown, conflict.value);
    AcceptedBound(cs, a', unexplored', accepted');
  }

  /** `snapshot` is what the search keeps for best pool size `best`:
      nothing while no pool was larger than 0, otherwise a copy of the
      clauses with an assignment under which at least `best` are true. */
  predicate KeepsAtLeast(snapshot: Option<Formula>, cs: seq<Clause>, n: int, best: int)
  {
    && (snapshot.None? <==> best == 0)
    && (snapshot.Some? ==>
          && snapshot.value.clauses == cs
          && |snapshot.value.values| == n + 1
          && Wellformed(snapshot.value)
          && CountSatisfied(snapshot.value.clauses, snapshot.value.values) >= best)
  }

  /** The best-so-far update at the end of an iteration: a pool larger
      than any before it becomes the best, with a copy of the clauses under
      the current assignment. */
  method RecordBest(cs: seq<Clause>, n: int, a: Assignment, size: nat, best: nat, snapshot: Option<Formula>)
    returns (best': nat, snapshot': Option<Formula>)
    requires |a| == n + 1 && NamesWithin(cs, n) && ClausesValid(cs)
    requires size <= CountSatisfied(cs, a)
    requires KeepsAtLeast(snapshot, cs, n, best)
    ensures best' == (if size > best then size else best)
    ensures size > best ==> snapshot' == Some(Snapshot(cs, a, n))
    ensures size <= best ==> snapshot' == snapshot
    ensures KeepsAtLeast(snapshot', cs, n, best')
  {
    best', snapshot' := best, snapshot;
    if size > best {
      best' := size;
      snapshot' := Some(Snapshot(cs, a, n));
    }
  }

  /** The state the search starts from: the problem's own assignment,
      every clause unexplored, none accepted. */
  function Start(p: Parameters): (s: State)
    requires Ready(p)
    ensures Pools(p.formula.clauses, s.values, s.unexplored, s.accepted) && |s.values| == p.noOfVariables + 1
  {
    var m := |p.formula.clauses|;
    assert multiset(Range(m)) + multiset([]) == multiset(Range(m));
    State(p.formula.values, Range(m), [])
  }

  /** The iterations that reached the constraining phase: iteration `i`
      took `trace[i]` to `trace[i + 1]` and left `sizes[i]` accepted
      clauses; the first starts from `Start(p)`. Every state keeps the
      pools a partition with every accepted clause true. */
  ghost predicate Iterations(p: Parameters, sizes: seq<nat>, trace: seq<State>)
    requires Ready(p)
  {
    var cs := p.formula.clauses;
    && |trace| == |sizes| + 1 && trace[0] == Start(p)
    && (forall i :: 0 <= i < |trace| ==>
          |trace[i].values| == p.noOfVariables + 1 && Pools(cs, trace[i].values, trace[i].unexplored, trace[i].accepted))
    && (forall i {:trigger sizes[i]} :: 0 <= i < |sizes| ==>
          Iterated(cs, trace[i], trace[i + 1]) && sizes[i] == |trace[i + 1].accepted|)
  }

  /** If iteration `k` is the first whose accepted pool reached a positive
      `best`, then `snapshot` is the copy of the clauses under the
      assignment that iteration left. */
  predicate TakenAt(p: Parameters, sizes: seq<nat>, trace: seq<State>, best: int, snapshot: Option<Formula>, k: int)
    requires Ready(p) && |trace| == |sizes| + 1
  {
    0 <= k < |sizes| && FirstIndex(sizes, best, k) && best > 0 ==>
      |trace[k + 1].values| == p.noOfVariables + 1 &&
      snapshot == Some(Snapshot(p.formula.clauses, trace[k + 1].values, p.noOfVariables))
  }

  /** `snapshot` is the copy taken after the first iteration whose
      accepted pool reached `best`. */
  predicate TakenAtFirst(p: Parameters, sizes: seq<nat>, trace: seq<State>, best: int, snapshot: Option<Formula>)
    requires Ready(p) && |trace| == |sizes| + 1
  {
    forall k :: 0 <= k < |sizes| ==> TakenAt(p, sizes, trace, best, snapshot, k)
  }

  /** What the search knows after the iterations so far: `best` is the
      first maximum of the accepted pools' sizes, and `snapshot` the copy
      of the clauses taken after the iteration that first reached it, an
      assignment satisfying at least `best`. */
  ghost predicate Traced(p: Parameters, sizes: seq<nat>, trace: seq<State>, best: nat, snapshot: Option<Formula>)
    requires Ready(p)
  {
    && Iterations(p, sizes, trace)
    && FirstBest(sizes, best)
    && KeepsAtLeast(snapshot, p.formula.clauses, p.noOfVariables, best)
    && TakenAtFirst(p, sizes, trace, best, snapshot)
  }

  /** A snapshot replaced exactly on a strict improvement stays the one
      taken at the first maximum. */
  lemma TakenAtFirstSnoc(p: Parameters, sizes: seq<nat>, trace: seq<State>, best: nat, snapshot: Option<Formula>,
                         t: State, snapshot': Option<Formula>)
    requires Ready(p) && |trace| == |sizes| + 1 && |t.values| == p.noOfVariables + 1
    requires FirstBest(sizes, best) && TakenAtFirst(p, sizes, trace, best, snapshot)
    requires |t.accepted| > best ==> snapshot' == Some(Snapshot(p.formula.clauses, t.values, p.noOfVariables))
    requires |t.accepted| <= best ==> snapshot' == snapshot
    ensures TakenAtFirst(p, sizes + [|t.accepted|], trace + [t],
                         if |t.accepted| > best then |t.accepted| else best, snapshot')
  {
    var best' := if |t.accepted| > best then |t.accepted| else best;
    forall k | 0 <= k < |sizes| + 1
      ensures TakenAt(p, sizes + [|t.accepted|], trace + [t], best', snapshot', k)
    {
      TakenAtFirstAt(p, sizes, trace, best, snapshot, t, snapshot', k);
    }
  }

  /** The step of `TakenAtFirstSnoc` for one index `k`: an earlier first
      maximum keeps its snapshot, and a new one is the snapshot just
      taken. */
  lemma TakenAtFirstAt(p: Parameters, sizes: seq<nat>, trace: seq<State>, best: nat, snapshot: Option<Formula>,
                       t: State, snapshot': Option<Formula>, k: int)
    requires Ready(p) && |trace| == |sizes| + 1 && |t.values| == p.noOfVariables + 1
    requires FirstBest(sizes, best) && TakenAtFirst(p, sizes, trace, best, snapshot)
    requires |t.accepted| > best ==> snapshot' == Some(Snapshot(p.formula.clauses, t.values, p.noOfVariables))
    requires |t.accepted| <= best ==> snapshot' == snapshot
    ensures TakenAt(p, sizes + [|t.accepted|], trace + [t],
                    if |t.accepted| > best then |t.accepted| else best, snapshot', k)
  {
    var size := |t.accepted|;
    var sizes', trace' := sizes + [size], trace + [t];
    var best' := if size > best then size else best;
    if 0 <= k < |sizes'| && FirstIndex(sizes', best', k) && best' > 0 {
      FirstIndexSnoc(sizes, best, size, k);
      if k < |sizes| {
        assert TakenAt(p, sizes, trace, best, snapshot, k);
        assert trace'[k + 1] == trace[k + 1];
      } else {
        assert trace'[k + 1] == t;
      }
    }
  }

  /** One pass of the max-tries loop that did not take the full exit:
      the iteration and the best-so-far update, recorded in the traces. */
  method Record(p: Parameters, s: State, best: nat, snapshot: Option<Formula>,
                ghost sizes: seq<nat>, ghost trace: seq<State>)
    returns (full: bool, t: State, best': nat, snapshot': Option<Formula>,
             ghost sizes': seq<nat>, ghost trace': seq<State>)
    requires Ready(p) && Traced(p, sizes, trace, best, snapshot) && trace[|sizes|] == s
    ensures full ==> t == s && AllSatisfied(p.formula.clauses, s.values) && sizes' == sizes && trace' == trace
    ensures full ==> best' == best && snapshot' == snapshot
    ensures !full ==> !AllSatisfied(p.formula.clauses, s.values) && sizes' == sizes + [|t.accepted|]
    ensures Traced(p, sizes', trace', best', snapshot') && trace'[|sizes'|] == t
  {
    var cs, n := p.formula.clauses, p.noOfVariables;
    var a', unexplored', accepted';
    full, a', unexplored', accepted' := Iterate(cs, p.noOfClauses, s.values, s.unexplored, s.accepted);
    if full {
      t, best', snapshot', sizes', trace' := s, best, snapshot, sizes, trace;
      return;
    }
    t := State(a', unexplored', accepted');
    best', snapshot', sizes', trace' := Extend(p, best, snapshot, t, sizes, trace);
  }

  /** The best-so-far update after an iteration that reached the
      constraining phase, recorded in the traces. */
  method Extend(p: Parameters, best: nat, snapshot: Option<Formula>, t: State,
                ghost sizes: seq<nat>, ghost trace: seq<State>)
    returns (best': nat, snapshot': Option<Formula>, ghost sizes': seq<nat>, ghost trace': seq<State>)
    requires Ready(p) && |t.values| == p.noOfVariables + 1
    requires Pools(p.formula.clauses, t.values, t.unexplored, t.accepted)
    requires |t.accepted| <= CountSatisfied(p.formula.clauses, t.values)
    requires Traced(p, sizes, trace, best, snapshot) && Iterated(p.formula.clauses, trace[|sizes|], t)
    ensures best' == (if |t.accepted| > best then |t.accepted| else best)
    ensures sizes' == sizes + [|t.accepted|] && trace' == trace + [t]
    ensures Traced(p, sizes', trace', best', snapshot')
  {
    best', snapshot' := RecordBest(p.formula.clauses, p.noOfVariables, t.values, |t.accepted|, best, snapshot);
    TracedSnoc(p, sizes, trace, best, snapshot, t, best', snapshot');
    var size: nat := |t.accepted|;
    sizes', trace' := sizes + [size], trace + [t];
  }

  /** The search's knowledge extended by one more iteration and its
      best-so-far update. */
  lemma TracedSnoc(p: Parameters, sizes: seq<nat>, trace: seq<State>, best: nat, snapshot: Option<Formula>,
                   t: State, best': nat, snapshot': Option<Formula>)
    requires Ready(p) && |t.values| == p.noOfVariables + 1
    requires |t.accepted| > best ==> snapshot' == Some(Snapshot(p.formula.clauses, t.values, p.noOfVariables))
    requires |t.accepted| <= best ==> snapshot' == snapshot
    requires best' == (if |t.accepted| > best then |t.accepted| else best)
    requires KeepsAtLeast(snapshot', p.formula.clauses, p.noOfVariables, best')
    requires Pools(p.formula.clauses, t.values, t.unexplored, t.accepted)
    requires Traced(p, sizes, trace, best, snapshot)
    requires Iterated(p.formula.clauses, trace[|sizes|], t)
    ensures var size: nat := |t.accepted|; Traced(p, sizes + [size], trace + [t], best', snapshot')
  {
    FirstBestSnoc(sizes, best, |t.accepted|);
    TakenAtFirstSnoc(p, sizes, trace, best, snapshot, t, snapshot');
    IterationsSnoc(p, sizes, trace, t);
  }

  /** The traces extended by one more iteration. */
  lemma IterationsSnoc(p: Parameters, sizes: seq<nat>, trace: seq<State>, t: State)
    requires Ready(p) && Iterations(p, sizes, trace)
    requires |t.values| == p.noOfVariables + 1 && Pools(p.formula.clauses, t.values, t.unexplored, t.accepted)
    requires Iterated(p.formula.clauses, trace[|sizes|], t)
    ensures var size: nat := |t.accepted|; Iterations(p, sizes + [size], trace + [t])
  {
    var cs := p.formula.clauses;
    var size: nat := |t.accepted|;
    var sizes', trace' := sizes + [size], trace + [t];
    forall i | 0 <= i < |trace'|
      ensures |trace'[i].values| == p.noOfVariables + 1
      ensures Pools(cs, trace'[i].values, trace'[i].unexplored, trace'[i].accepted)
    {
      if i < |trace| {
        assert trace'[i] == trace[i];
      }
    }
    forall i | 0 <= i < |sizes'|
      ensures Iterated(cs, trace'[i], trace'[i + 1]) && sizes'[i] == |trace'[i + 1].accepted|
    {
      if i < |sizes| {
        assert trace'[i] == trace[i] && trace'[i + 1] == trace[i + 1] && sizes'[i] == sizes[i];
      } else {
        assert i == |sizes| && |trace| == i + 1;
        assert trace'[i] == trace[i];
        assert trace'[i + 1] == t;
      }
    }
  }

  /** The max-tries loop of `solveMAXSAT`. Iteration `i` of those that
      reached the constraining phase took `trace[i]` to `trace[i + 1]`,
      leaving `sizes[i]` accepted clauses; `best` is their running maximum
      and `snapshot` the copy of the clauses taken after the iteration that
      first reached it. `full` says the loop
      stopped because the optimization phase accepted every clause, from
      the last state of the trace. That exit comes before the best-so-far
      update, so the iteration that satisfies every clause is not
      recorded: when the starting assignment already satisfies every
      clause, the loop reports one iteration, a best of 0 and no
      snapshot. */
  method Search(p: Parameters, maxTries: int)
    returns (noOfIterations: int, best: nat, snapshot: Option<Formula>,
             ghost sizes: seq<nat>, ghost trace: seq<State>, ghost full: bool)
    requires Ready(p)
    ensures Traced(p, sizes, trace, best, snapshot)
    ensures noOfIterations == |sizes| + (if full then 1 else 0) <= Max(0, maxTries)
    ensures !full ==> |sizes| == Max(0, maxTries)
    ensures full ==> AllSatisfied(p.formula.clauses, trace[|sizes|].values)
    ensures maxTries >= 1 && AllSatisfied(p.formula.clauses, p.formula.values) ==>
              noOfIterations == 1 && best == 0 && snapshot.None?
  {
    var s := Start(p);
    noOfIterations, best, snapshot := 0, 0, None;
    sizes, trace, full := [], [s], false;
    var i := 0;
    while i < maxTries
      invariant 0 <= i <= Max(0, maxTries)
      invariant noOfIterations == i == |sizes|
      invariant Traced(p, sizes, trace, best, snapshot) && trace[i] == s
      invariant i > 0 ==> !AllSatisfied(p.formula.clauses, p.formula.values)
    {
      noOfIterations := noOfIterations + 1;
      var stop;
      stop, s, best, snapshot, sizes, trace := Record(p, s, best, snapshot, sizes, trace);
      if stop {
        full := true;
        break;
      }
      i := i + 1;
    }
  }

  /** What `solveMAXSAT` reports: a Solution on `p`'s variable count whose
      iterations, count and clauses are those of a run of the max-tries
      loop with the traces `sizes`/`trace`, stopping at the full exit
      exactly when `full`. */
  ghost predicate Reported(p: Parameters, maxTries: int, s: Solution, sizes: seq<nat>, trace: seq<State>, full: bool)
    requires Ready(p)
  {
    && Valid(s) && s.noOfVariables == p.noOfVariables
    && s.noOfSatisfiedClauses >= 0
    && Traced(p, sizes, trace, s.noOfSatisfiedClauses, s.clauses)
    && s.noOfIterations == |sizes| + (if full then 1 else 0) <= Max(0, maxTries)
    && (!full ==> |sizes| == Max(0, maxTries))
    && (full ==> AllSatisfied(p.formula.clauses, trace[|sizes|].values))
  }

  /** `s` is a Solution some sequence of random draws makes `solveMAXSAT`
      report on `p`. */
  ghost predicate Searched(p: Parameters, maxTries: int, s: Solution)
    requires Ready(p)
  {
    exists sizes: seq<nat>, trace: seq<State>, full: bool :: Reported(p, maxTries, s, sizes, trace, full)
  }

  /** `solveMAXSAT`: the loop's outcome in a new Solution, whose
      constructor throws when there are fewer than one variable. The wall
      clock is the parameter `elapsed`. */
  method Solve(p: Parameters, maxTries: int, elapsed: real)
    returns (r: Result<Solution>, ghost sizes: seq<nat>, ghost trace: seq<State>, ghost full: bool)
    requires Ready(p)
    ensures r.Failure? <==> p.noOfVariables < 1
    ensures r.Failure? ==> r.error == IllegalArgument
    ensures r.Success? ==> r.value.time == elapsed && Reported(p, maxTries, r.value, sizes, trace, full)
    ensures r.Success? ==> Searched(p, maxTries, r.value)
    ensures r.Success? && maxTries >= 1 && AllSatisfied(p.formula.clauses, p.formula.values) ==>
              r.value.noOfIterations == 1 && r.value.noOfSatisfiedClauses == 0 && r.value.clauses.None?
  {
    var noOfIterations, best, snapshot;
    noOfIterations, best, snapshot, sizes, trace, full := Search(p, maxTries);
    var created := NewSolution(p.noOfVariables);
    if created.Failure? {
      return Failure(created.error), sizes, trace, full;
    }
    r := Success(created.value.(noOfIterations := noOfIterations, noOfSatisfiedClauses := best,
                              time := elapsed, clauses := snapshot));
    assert Reported(p, maxTries, r.value, sizes, trace, full);
  }

  /** When the optimization phase accepted as many clauses as there are,
      every clause is accepted, so every clause is true. */
  lemma AllAccepted(cs: seq<Clause>, a: Assignment, unexplored: seq<nat>, accepted: seq<nat>, conflict: Option<nat>)
    requires Reads(cs, a) && InRange(accepted, |cs|) && AllHold(cs, a, accepted)
    requires multiset(unexplored) + multiset(accepted) + Pending(conflict) == multiset(Range(|cs|))
    requires |accepted| == |cs|
    ensures AllSatisfied(cs, a)
  {
    var whole := multiset(Range(|cs|));
    assert |whole| == |cs|;
    assert |multiset(unexplored)| == 0 && |Pending(conflict)| == 0;
    assert multiset(accepted) == whole;
    forall j | 0 <= j < |cs|
      ensures Satisfied(cs[j], a)
    {
      assert Range(|cs|)[j] == j;
      assert j in whole;
      var i :| 0 <= i < |accepted| && accepted[i] == j;
    }
  }
}

=== FILE: literal.dfy ===
/** Literal.java over an arena of variable values.

    A Java `Variable` is an object with a name and a mutable value, shared by
    reference between every `Literal` built from it. Here the values of all
    variables of one clause graph live in one `Assignment`, indexed by name,
    and a literal holds the name: every literal naming `v` reads slot `v`, so
    the sharing of the Java object graph is explicit. */
module Literals {

  /** The values of the variables of one clause graph, indexed by variable
      name. The loader creates variables 0..n, all `false`; slot 0 is never
      named by a clause it reads. */
  type Assignment = seq<bool>

  /** `new Literal(variable, isNegated)`: the variable is referenced, not copied. */
  datatype Literal = Literal(name: int, negated: bool)

  /** `Literal.getValue`: the truth value of `l` under `a`. */
  function Value(l: Literal, a: Assignment): (r: bool)
    requires 0 <= l.name < |a|
    ensures r <==> a[l.name] != l.negated
  {
    if l.negated then !a[l.name] else a[l.name]
  }

  /** `variable.value = !variable.value` on the variable named `v`. */
  function Flip(a: Assignment, v: int): Assignment
    requires 0 <= v < |a|
  {
    a[v := !a[v]]
  }

  /** Flipping variable `v` is seen through every literal naming `v`, and
      through no other literal. */
  lemma FlipSeenByEveryAlias(l: Literal, a: Assignment, v: int)
    requires 0 <= l.name < |a| && 0 <= v < |a|
    ensures Value(l, Flip(a, v)) == (if l.name == v then !Value(l, a) else Value(l, a))
  {
  }
}

=== FILE: problem.dfy ===
/** MAXSATParameters.java and the facts about clause arrays that the
    searches, the deep copy and the solutions share. */
module Problem {
  import opened Literals
  import opened Clauses

  /** A Java `Clause[]` together with the variables its literals reach:
      the clause structure and the arena holding the variables' values. */
  datatype Formula = Formula(clauses: seq<Clause>, values: Assignment)

  /** `MAXSATParameters`: the counts from the `p cnf` header and the clauses. */
  datatype Parameters = Parameters(noOfVariables: int, noOfClauses: int, formula: Formula)

  /** Every literal of every clause names a slot of `a`. */
  predicate Reads(cs: seq<Clause>, a: Assignment)
  {
    forall j, k :: 0 <= j < |cs| && 0 <= k < |cs[j].literals| ==> 0 <= cs[j].literals[k].name < |a|
  }

  /** Every literal reaches a variable: its name is a slot of the arena. */
  predicate Wellformed(f: Formula)
  {
    Reads(f.clauses, f.values)
  }

  /** Every literal names a variable in `[0, n]`. */
  predicate NamesWithin(cs: seq<Clause>, n: int)
  {
    forall j, k :: 0 <= j < |cs| && 0 <= k < |cs[j].literals| ==> 0 <= cs[j].literals[k].name <= n
  }

  /** Every clause holds a literal array of its declared length. */
  predicate ClausesValid(cs: seq<Clause>)
  {
    forall j :: 0 <= j < |cs| ==> LengthMatches(cs[j])
  }

  /** Some literal of some clause names `v`. */
  predicate Occurs(cs: seq<Clause>, v: int)
  {
    exists j, k :: 0 <= j < |cs| && 0 <= k < |cs[j].literals| && cs[j].literals[k].name == v
  }

  predicate AllSatisfied(cs: seq<Clause>, a: Assignment)
    requires Reads(cs, a)
  {
    forall j :: 0 <= j < |cs| ==> Satisfied(cs[j], a)
  }

  /** The number of clauses satisfied under `a`, counted front to back. */
  function CountSatisfied(cs: seq<Clause>, a: Assignment): (r: nat)
    requires Reads(cs, a)
    ensures r <= |cs|
    ensures r == |cs| <==> AllSatisfied(cs, a)
  {
    if |cs| == 0 then 0
    else
      var prefix := cs[..|cs| - 1];
      assert forall j :: 0 <= j < |prefix| ==> prefix[j] == cs[j];
      CountSatisfied(prefix, a) + (if Satisfied(cs[|cs| - 1], a) then 1 else 0)
  }

  /** Two assignments that agree on every named slot satisfy the same
      clauses. */
  lemma {:induction false} CountSatisfiedAgree(cs: seq<Clause>, a: Assignment, b: Assignment)
    requires Reads(cs, a) && Reads(cs, b)
    requires forall j, k :: 0 <= j < |cs| && 0 <= k < |cs[j].literals| ==>
               var v := cs[j].literals[k].name; 0 <= v < |a| && v < |b| && a[v] == b[v]
    ensures forall j :: 0 <= j < |cs| ==> Satisfied(cs[j], a) == Satisfied(cs[j], b)
    ensures CountSatisfied(cs, a) == CountSatisfied(cs, b)
  {
    forall j | 0 <= j < |cs|
      ensures Satisfied(cs[j], a) == Satisfied(cs[j], b)
    {
      SatisfiedAgree(cs[j], a, b);
    }
    if |cs| > 0 {
      var prefix := cs[..|cs| - 1];
      assert forall j :: 0 <= j < |prefix| ==> prefix[j] == cs[j];
      CountSatisfiedAgree(prefix, a, b);
    }
  }

  /** The indices `0 .. m-1`, one per clause: the full clause pool. */
  function Range(m: nat): (r: seq<nat>)
    ensures |r| == m
    ensures forall i :: 0 <= i < m ==> r[i] == i
  {
    if m == 0 then [] else Range(m - 1) + [m - 1]
  }

  predicate Distinct(s: seq<nat>)
  {
    forall i, j :: 0 <= i < j < |s| ==> s[i] != s[j]
  }

  /** A pool drawn from the full clause pool, as a multiset, holds each clause
      at most once and only clauses that exist. */
  lemma {:induction false} SubPoolDistinct(s: seq<nat>, m: nat)
    requires multiset(s) <= multiset(Range(m))
    ensures Distinct(s)
    ensures forall i :: 0 <= i < |s| ==> s[i] < m
  {
    RangeCounts(m);
    forall i | 0 <= i < |s|
      ensures s[i] < m
    {
      assert s[i] in multiset(s);
    }
    forall i, j | 0 <= i < j < |s|
      ensures s[i] != s[j]
    {
      RepeatCountedTwice(s, i, j);
    }
  }

  /** An element at two positions of `s` occurs twice in `multiset(s)`. */
  lemma RepeatCountedTwice(s: seq<nat>, i: int, j: int)
    requires 0 <= i < j < |s|
    ensures s[i] == s[j] ==> multiset(s)[s[i]] >= 2
  {
    var x := s[j];
    assert s == s[..j] + [x] + s[j + 1..];
    assert s[..j][i] == s[i];
    assert multiset(s)[x] == multiset(s[..j])[x] + 1 + multiset(s[j + 1..])[x];
  }

  /** Every index occurs in `Range(m)` at most once, and only below `m`. */
  lemma {:induction false} RangeCounts(m: nat)
    ensures forall x :: multiset(Range(m))[x] <= 1
    ensures forall x :: x in multiset(Range(m)) ==> x < m
  {
    if m > 0 {
      RangeCounts(m - 1);
      var last: nat := m - 1;
      assert Range(m) == Range(last) + [last];
      assert multiset(Range(m)) == multiset(Range(last)) + multiset{last};
      assert multiset(Range(last))[last] == 0;
    }
  }

  /** A list of distinct satisfied clauses is no longer than the satisfied
      count. */
  lemma {:induction false} DistinctSatisfiedBound(cs: seq<Clause>, a: Assignment, s: seq<nat>)
    requires Reads(cs, a)
    requires forall i :: 0 <= i < |s| ==> s[i] < |cs| && Satisfied(cs[s[i]], a)
    requires Distinct(s)
    ensures |s| <= CountSatisfied(cs, a)
    decreases |cs|
  {
    if |cs| > 0 {
      var last := |cs| - 1;
      var prefix := cs[..last];
      assert forall j :: 0 <= j < |prefix| ==> prefix[j] == cs[j];
      var rest := Without(s, last);
      forall i | 0 <= i < |rest|
        ensures rest[i] < |prefix| && Satisfied(prefix[rest[i]], a)
      {
        var k :| 0 <= k < |s| && s[k] == rest[i];
      }
      DistinctSatisfiedBound(prefix, a, rest);
      if last in s {
        var i :| 0 <= i < |s| && s[i] == last;
        assert Satisfied(cs[last], a);
      }
    }
  }

  /** `s` with the one element `x` removed. */
  function Without(s: seq<nat>, x: nat): (r: seq<nat>)
    requires Distinct(s)
    ensures Distinct(r)
    ensures forall i :: 0 <= i < |r| ==> r[i] in s && r[i] != x
    ensures forall i :: 0 <= i < |s| && s[i] != x ==> s[i] in r
    ensures |r| == if x in s then |s| - 1 else |s|
  {
    if |s| == 0 then []
    else if s[0] == x then
      assert x !in s[1..];
      s[1..]
    else [s[0]] + Without(s[1..], x)
  }

  /** `best` is the largest of `counts` (0 when there are none) and the
      first iteration that reached it. */
  predicate FirstBest(counts: seq<nat>, best: int)
  {
    && (forall i :: 0 <= i < |counts| ==> counts[i] <= best)
    && (best > 0 ==> exists i :: 0 <= i < |counts| && counts[i] == best &&
                       forall i' :: 0 <= i' < i ==> counts[i'] < best)
  }

  /** Iteration `k` is the first whose count reached `best`. */
  predicate FirstIndex(counts: seq<nat>, best: int, k: int)
  {
    0 <= k < |counts| && counts[k] == best && forall i :: 0 <= i < k ==> counts[i] < best
  }

  /** After one more count, with the best moving only on a strict
      improvement, the first iteration that reached a positive best is an
      earlier one exactly when the best did not move. */
  lemma FirstIndexSnoc(counts: seq<nat>, best: nat, temp: nat, k: int)
    requires FirstBest(counts, best)
    requires (if temp > best then temp else best) > 0
    requires FirstIndex(counts + [temp], if temp > best then temp else best, k)
    ensures k < |counts| ==> temp <= best && FirstIndex(counts, best, k)
    ensures k == |counts| ==> temp > best
  {
    var counts' := counts + [temp];
    assert forall i :: 0 <= i < |counts| ==> counts'[i] == counts[i];
  }

  /** Recording one more count keeps `FirstBest` when the best moves only
      on a strict improvement. */
  lemma {:induction false} FirstBestSnoc(counts: seq<nat>, best: nat, temp: nat)
    requires FirstBest(counts, best)
    ensures FirstBest(counts + [temp], if temp > best then temp else best)
  {
    var counts' := counts + [temp];
    if temp > best {
      assert counts'[|counts|] == temp;
      assert forall i' :: 0 <= i' < |counts| ==> counts'[i'] < temp;
    } else if best > 0 {
      var i :| 0 <= i < |counts| && counts[i] == best && forall i' :: 0 <= i' < i ==> counts[i'] < best;
      assert counts'[i] == best;
    }
  }
}

=== FILE: restart.dfy ===
/** MAXSATSolverSmp_3.java: the restart driver around the incremental
    search.

    The driver creates one shared reduction variable, then runs up to 150
    rounds. In each round every worker deep-copies the problem, runs the
    incremental search on its copy and offers the result to the reduction
    variable, which keeps the first strictly larger count; a worker that
    sees every clause satisfied stops the round. After a round the driver
    tracks the best count and the round that first reached it, stops once
    every clause is satisfied, and otherwise restarts the next round from
    the clauses the reduction variable holds.

    The workers of a round run one after another in index order, and the
    reduction is a single fold over their results;
    `SolutionVbls.ThreadLocalFold` shows that one thread-local copy, folded
    and then reduced into the shared variable, reaches the count of the
    direct fold. Seeds and worker times are arbitrary. */
module Restart {
  import opened Base
  import opened Literals
  import opened Clauses
  import opened Problem
  import opened Utilities
  import opened Solutions
  import opened SolutionVbls
  import opened Incremental

  /** The number of restart rounds (`M < 150`). */
  const MaxRounds := 150

  /** The driver's results: the best round (1-based, 0 when no round
      improved on 0), its count, the number of rounds run, and the shared
      reduction variable. */
  datatype Outcome = Outcome(bestM: int, bestMax: int, rounds: int, reduction: SolutionVbl)

  /** What the shared reduction variable keeps across rounds: a valid
      solution on `n` variables whose count is never negative, and whose
      clauses, held exactly when the count is positive, are the problem's
      clauses with an assignment that satisfies at least that count. */
  predicate Restartable(v: SolutionVbl, cs: seq<Clause>, n: int)
  {
    && Valid(v.solution)
    && v.solution.noOfVariables == n
    && Count(v) >= 0
    && KeepsAtLeast(v.solution.clauses, cs, n, Count(v))
  }

  /** What a worker's result satisfies: a valid solution whose clauses are
      the problem's clauses, holding at least its count when present. */
  predicate WorkerResult(s: Solution, cs: seq<Clause>, n: int)
  {
    Valid(s) && s.noOfSatisfiedClauses >= 0 && KeepsAtLeast(s.clauses, cs, n, s.noOfSatisfiedClauses)
  }

  /** Offering a worker's result keeps the shared variable restartable: a
      larger count brings a copy of clauses that satisfy at least as many. */
  lemma CompareKeeps(v: SolutionVbl, cand: Solution, cs: seq<Clause>, n: int)
    requires n >= 1 && NamesWithin(cs, n) && ClausesValid(cs)
    requires Restartable(v, cs, n) && WorkerResult(cand, cs, n)
    ensures Restartable(Compare(v, cand), cs, n)
  {
    if cand.noOfSatisfiedClauses > Count(v) {
      assert Copyable(cand.clauses.value, n);
    }
  }

  /** The problem a worker searches: the deep copy of `f` on `n`
      variables and `m` clauses, with the same clauses, each true under the
      copied assignment exactly when it is true under `f`'s. */
  function CopyFor(n: int, m: int, f: Formula): (p: Parameters)
    requires n >= 1 && Incremental.Ready(Parameters(n, m, f))
    ensures Incremental.Ready(p) && p.noOfVariables == n && p.noOfClauses == m
    ensures p.formula.clauses == f.clauses
    ensures forall j :: 0 <= j < |f.clauses| ==>
              Satisfied(p.formula.clauses[j], p.formula.values) == Satisfied(f.clauses[j], f.values)
    ensures CountSatisfied(p.formula.clauses, p.formula.values) == CountSatisfied(f.clauses, f.values)
  {
    assert Copyable(f, n);
    DeepCopyPreservesSatisfaction(f, n);
    DeepCopyParameters(Parameters(n, m, f)).value
  }

  /** A round's record: the workers searched deep copies of `current` and
      reported `results`, which folded into `before` give `after`. No
      worker runs without clauses to copy; every result carries a copy of
      `current`'s clauses satisfying at least its count (`Round` states
      further that each is one the incremental search can report on the
      copy); the round stops early only after the first worker whose offer
      leaves every clause satisfied. */
  ghost predicate RoundOf(n: int, m: int, current: Option<Formula>, workers: int, maxTries: int,
                          before: SolutionVbl, results: seq<Solution>, after: SolutionVbl)
  {
    && n >= 1
    && AllValid(results) && after == Absorb(before, results)
    && |results| <= Max(0, workers)
    && (current.None? ==> results == [])
    && (current.Some? ==>
          && Incremental.Ready(Parameters(n, m, current.value))
          && (forall i :: 0 <= i < |results| ==> WorkerResult(results[i], current.value.clauses, n))
          && (|results| < workers ==> Count(after) == m)
          && PrefixesShort(before, results, m))
  }

  /** Folding any proper, non-empty prefix of `results` into `v` leaves a
      count other than `m`. */
  predicate PrefixesShort(v: SolutionVbl, results: seq<Solution>, m: int)
    requires AllValid(results)
  {
    forall j :: 0 < j < |results| ==> Count(Absorb(v, results[..j])) != m
  }

  /** What a round knows after offering `results` to `shared`: the
      shared variable `now` is their fold, still restartable and never
      below where it started; every result is one the incremental search
      can report on the copy of `f`; and when no try runs or `f`'s
      assignment already satisfies every clause, a count of 0 stays 0. */
  ghost predicate Offered(n: int, m: int, f: Formula, maxTries: int, shared: SolutionVbl,
                          results: seq<Solution>, now: SolutionVbl)
  {
    && n >= 1 && Incremental.Ready(Parameters(n, m, f))
    && Restartable(now, f.clauses, n)
    && AllValid(results) && now == Absorb(shared, results)
    && (forall i :: 0 <= i < |results| ==> Searched(CopyFor(n, m, f), maxTries, results[i]))
    && (forall i :: 0 <= i < |results| ==> WorkerResult(results[i], f.clauses, n))
    && PrefixesShort(shared, results, m)
    && Count(now) >= Count(shared)
    && ((maxTries < 1 || AllSatisfied(f.clauses, f.values)) && Count(shared) == 0 ==> Count(now) == 0)
  }

  /** One worker's turn in a round: it searches a deep copy of `f` and
      offers its result to the shared variable. */
  method Offer(n: int, m: int, f: Formula, maxTries: int, ghost shared: SolutionVbl,
               ghost results: seq<Solution>, now: SolutionVbl)
    returns (ghost results': seq<Solution>, now': SolutionVbl)
    requires Offered(n, m, f, maxTries, shared, results, now)
    requires |results| > 0 ==> Count(now) != m
    ensures Offered(n, m, f, maxTries, shared, results', now')
    ensures |results'| == |results| + 1 && results'[..|results|] == results
    ensures now' == Compare(now, results'[|results|])
    ensures Restartable(now', f.clauses, n) && Count(now') >= Count(now)
  {
    var s := Work(n, m, f, maxTries);
    now' := Compare(now, s);
    CompareKeeps(now, s, f.clauses, n);
    OfferedSnoc(n, m, f, maxTries, shared, results, now, s);
    results' := results + [s];
    assert results'[..|results|] == results;
  }

  /** The round's knowledge extended by one more worker's offer. */
  lemma OfferedSnoc(n: int, m: int, f: Formula, maxTries: int, shared: SolutionVbl,
                    results: seq<Solution>, now: SolutionVbl, s: Solution)
    requires Offered(n, m, f, maxTries, shared, results, now)
    requires |results| > 0 ==> Count(now) != m
    requires Searched(CopyFor(n, m, f), maxTries, s) && WorkerResult(s, f.clauses, n) && s.noOfVariables == n
    requires maxTries < 1 || AllSatisfied(f.clauses, f.values) ==> s.noOfSatisfiedClauses == 0
    ensures Offered(n, m, f, maxTries, shared, results + [s], Compare(now, s))
  {
    CompareKeeps(now, s, f.clauses, n);
    AbsorbSnoc(shared, results, s);
    PrefixesSnoc(shared, results, s, m);
    SearchedSnoc(CopyFor(n, m, f), maxTries, results, s);
    var results' := results + [s];
    forall i | 0 <= i < |results'|
      ensures WorkerResult(results'[i], f.clauses, n)
    {
      if i < |results| {
        assert results'[i] == results[i];
      }
    }
  }

  /** Every result of `results + [s]` is one the search can report on `p`
      when those of `results` and `s` are. */
  lemma SearchedSnoc(p: Parameters, maxTries: int, results: seq<Solution>, s: Solution)
    requires Incremental.Ready(p) && Searched(p, maxTries, s)
    requires forall i :: 0 <= i < |results| ==> Searched(p, maxTries, results[i])
    ensures forall i :: 0 <= i < |results + [s]| ==> Searched(p, maxTries, (results + [s])[i])
  {
    var results' := results + [s];
    forall i | 0 <= i < |results'|
      ensures Searched(p, maxTries, results'[i])
    {
      if i < |results| {
        assert results'[i] == results[i];
      }
    }
  }

  /** One round: workers `0 .. workers-1` take their turns, and the round
      stops after the first whose offer leaves every clause satisfied. The
      shared variable ends as the fold of the results into it, so its
      count never drops. When no try runs, or `f`'s assignment already
      satisfies every clause, every worker reports a count of 0, and a
      shared count of 0 stays 0. */
  method Round(n: int, m: int, f: Formula, workers: int, maxTries: int, shared: SolutionVbl)
    returns (shared': SolutionVbl, ghost results: seq<Solution>)
    requires n >= 1 && Incremental.Ready(Parameters(n, m, f))
    requires Restartable(shared, f.clauses, n)
    ensures RoundOf(n, m, Some(f), workers, maxTries, shared, results, shared')
    ensures forall i :: 0 <= i < |results| ==> Searched(CopyFor(n, m, f), maxTries, results[i])
    ensures Restartable(shared', f.clauses, n)
    ensures Count(shared') >= Count(shared)
    ensures (maxTries < 1 || AllSatisfied(f.clauses, f.values)) && Count(shared) == 0 ==> Count(shared') == 0
  {
    shared', results := shared, [];
    var w := 0;
    while w < workers
      invariant 0 <= w <= Max(0, workers) && |results| == w
      invariant Offered(n, m, f, maxTries, shared, results, shared')
      invariant w > 0 ==> Count(shared') != m
    {
      results, shared' := Offer(n, m, f, maxTries, shared, results, shared');
      w := w + 1;
      if Count(shared') == m {
        break;
      }
    }
    assert RoundOf(n, m, Some(f), workers, maxTries, shared, results, shared');
  }

  /** The proper prefixes of `results + [s]` are those of `results` and
      `results` itself. */
  lemma PrefixesSnoc(v: SolutionVbl, results: seq<Solution>, s: Solution, m: int)
    requires AllValid(results) && Valid(s)
    requires PrefixesShort(v, results, m) && (|results| > 0 ==> Count(Absorb(v, results)) != m)
    ensures AllValid(results + [s]) && PrefixesShort(v, results + [s], m)
  {
    var all := results + [s];
    assert AllValid(all) by {
      assert forall i :: 0 <= i < |all| ==> all[i] == if i < |results| then results[i] else s;
    }
    forall j | 0 < j < |all|
      ensures Count(Absorb(v, all[..j])) != m
    {
      assert all[..j] == results[..j];
      if j == |results| {
        assert results[..j] == results;
      }
    }
  }

  /** One worker: search a deep copy of `f` and report a solution the
      incremental search can report on that copy. No try, or a start that
      satisfies every clause, reports 0. */
  method Work(n: int, m: int, f: Formula, maxTries: int) returns (s: Solution)
    requires n >= 1 && Incremental.Ready(Parameters(n, m, f))
    ensures Searched(CopyFor(n, m, f), maxTries, s)
    ensures WorkerResult(s, f.clauses, n) && s.noOfVariables == n
    ensures maxTries < 1 || AllSatisfied(f.clauses, f.values) ==> s.noOfSatisfiedClauses == 0
  {
    var copy := CopyFor(n, m, f);
    assert AllSatisfied(f.clauses, f.values) ==> AllSatisfied(copy.formula.clauses, copy.formula.values);
    var elapsed: real :| true;
    var solved;
    ghost var sizes, trace, full;
    solved, sizes, trace, full := Incremental.Solve(copy, maxTries, elapsed);
    s := solved.value;
    if maxTries < 1 {
      assert |sizes| == 0;
    }
  }

  /** The clauses the next round starts from. As written, the driver takes
      whatever the reduction variable holds, `null` included; the
      corrected driver keeps the current clauses while it holds none. */
  function FeedForward(current: Option<Formula>, held: Option<Formula>, corrected: bool): (r: Option<Formula>)
    ensures held.Some? ==> r == held
    ensures held.None? ==> r == (if corrected then current else None)
    ensures r.None? <==> held.None? && (!corrected || current.None?)
  {
    if held.None? && corrected then current else held
  }

  /** What one pass of the restart loop promises: the round's record;
      the shared variable stays restartable and its count never drops;
      the next round starts from the clauses `FeedForward` picks, which
      are the problem's clauses when present, and are absent exactly when
      the as-written driver is left with a count of 0; and when no try runs
      or the current assignment satisfies every clause, a count of 0 stays
      0. */
  ghost predicate Stepped(n: int, m: int, cs: seq<Clause>, current: Option<Formula>, workers: int, maxTries: int,
                          corrected: bool, shared: SolutionVbl, results: seq<Solution>, shared': SolutionVbl,
                          next: Option<Formula>)
  {
    && RoundOf(n, m, current, workers, maxTries, shared, results, shared')
    && Restartable(shared', cs, n) && Count(shared') >= Count(shared)
    && next == FeedForward(current, shared'.solution.clauses, corrected)
    && (next.Some? ==> Incremental.Ready(Parameters(n, m, next.value)) && next.value.clauses == cs)
    && (next.None? <==> !corrected && Count(shared') == 0)
    && (current.Some? && Reads(cs, current.value.values) && Count(shared) == 0 ==>
          (maxTries < 1 || AllSatisfied(cs, current.value.values)) ==> Count(shared') == 0)
  }

  /** One pass of the restart loop: a round from the current clauses, then
      the clauses the next round starts from. Without current clauses only
      a driver with no workers gets past the round, since a worker's deep
      copy would dereference the missing array. */
  method Step(n: int, m: int, cs: seq<Clause>, current: Option<Formula>, workers: int, maxTries: int,
              shared: SolutionVbl, corrected: bool)
    returns (shared': SolutionVbl, next: Option<Formula>, ghost results: seq<Solution>)
    requires n >= 1 && Restartable(shared, cs, n)
    requires current.Some? ==> Incremental.Ready(Parameters(n, m, current.value)) && current.value.clauses == cs
    requires current.None? ==> !corrected && Count(shared) == 0
    requires current.Some? || workers < 1
    ensures Stepped(n, m, cs, current, workers, maxTries, corrected, shared, results, shared', next)
    ensures Restartable(shared', cs, n) && Count(shared') >= Count(shared)
    ensures next == FeedForward(current, shared'.solution.clauses, corrected)
    ensures next.None? <==> !corrected && Count(shared') == 0
  {
    shared', results := shared, [];
    if current.Some? {
      shared', results := Round(n, m, current.value, workers, maxTries, shared);
    }
    next := FeedForward(current, shared'.solution.clauses, corrected);
    if next.Some? {
      assert Incremental.Ready(Parameters(n, m, current.value));
    }
  }

  /** `bestM` is the first round (1-based) whose count reached `bestMax`,
      and 0 while `bestMax` is 0. */
  predicate FirstReached(maxima: seq<int>, bestMax: int, bestM: int)
  {
    && (bestMax == 0 ==> bestM == 0)
    && (bestMax > 0 ==> 1 <= bestM <= |maxima| && maxima[bestM - 1] == bestMax &&
                        forall i :: 0 <= i < bestM - 1 ==> maxima[i] < bestMax)
  }

  /** Never decreasing. */
  predicate Monotone(s: seq<int>)
  {
    forall i, j :: 0 <= i <= j < |s| ==> s[i] <= s[j]
  }

  /** The rounds so far: round `k` ran from `currents[k]`, its workers
      reported `passes[k]`, folding them turned `vbls[k]` into
      `vbls[k + 1]`, whose count is `maxima[k]`, and the next round starts
      from `currents[k + 1]`. The fold starts from a new solution and the
      first round from the problem's own clauses. */
  ghost predicate Rounds(p: Parameters, maxTries: int, workers: int, corrected: bool, maxima: seq<int>,
                         passes: seq<seq<Solution>>, vbls: seq<SolutionVbl>, currents: seq<Option<Formula>>)
  {
    var n, m := p.noOfVariables, p.noOfClauses;
    && |passes| == |maxima| && |vbls| == |maxima| + 1 && |currents| == |maxima| + 1
    && NewSolution(n).Success? && vbls[0] == SolutionVbl(NewSolution(n).value)
    && currents[0] == Some(p.formula)
    && forall k {:trigger passes[k]} :: 0 <= k < |maxima| ==>
         && RoundOf(n, m, currents[k], workers, maxTries, vbls[k], passes[k], vbls[k + 1])
         && maxima[k] == Count(vbls[k + 1])
         && currents[k + 1] == FeedForward(currents[k], vbls[k + 1].solution.clauses, corrected)
  }

  /** The rounds extended by one more. */
  lemma RoundsSnoc(p: Parameters, maxTries: int, workers: int, corrected: bool, maxima: seq<int>,
                   passes: seq<seq<Solution>>, vbls: seq<SolutionVbl>, currents: seq<Option<Formula>>,
                   results: seq<Solution>, shared': SolutionVbl, next: Option<Formula>)
    requires Rounds(p, maxTries, workers, corrected, maxima, passes, vbls, currents)
    requires RoundOf(p.noOfVariables, p.noOfClauses, currents[|maxima|], workers, maxTries, vbls[|maxima|], results, shared')
    requires next == FeedForward(currents[|maxima|], shared'.solution.clauses, corrected)
    ensures Rounds(p, maxTries, workers, corrected, maxima + [Count(shared')], passes + [results],
                   vbls + [shared'], currents + [next])
  {
    var maxima', passes', vbls', currents' := maxima + [Count(shared')], passes + [results], vbls + [shared'], currents + [next];
    forall k | 0 <= k < |maxima'|
      ensures RoundOf(p.noOfVariables, p.noOfClauses, currents'[k], workers, maxTries, vbls'[k], passes'[k], vbls'[k + 1])
      ensures maxima'[k] == Count(vbls'[k + 1])
      ensures currents'[k + 1] == FeedForward(currents'[k], vbls'[k + 1].solution.clauses, corrected)
    {
      if k < |maxima| {
        assert passes'[k] == passes[k];
        assert vbls'[k] == vbls[k] && vbls'[k + 1] == vbls[k + 1];
        assert currents'[k] == currents[k] && currents'[k + 1] == currents[k + 1];
        assert maxima'[k] == maxima[k];
      } else {
        assert k == |maxima| && |vbls| == k + 1;
        assert vbls'[k] == vbls[k] && vbls'[k + 1] == shared';
        assert currents'[k] == currents[k] && currents'[k + 1] == next;
      }
    }
  }

  /** What the restart loop knows after the rounds recorded so far: the
      shared variable after the last round is restartable, the next round
      has clauses to copy unless the as-written driver fed `null` forward
      after a round that left the count 0, the counts never decrease,
      `bestMax` is the last of them and `bestM` the round that first
      reached it, no round before the last satisfied every clause, and a
      problem on which no try runs or whose starting assignment satisfies
      every clause ends round 1 with a count of 0. */
  ghost predicate Progress(p: Parameters, maxTries: int, workers: int, corrected: bool, maxima: seq<int>,
                           passes: seq<seq<Solution>>, vbls: seq<SolutionVbl>, currents: seq<Option<Formula>>,
                           bestM: int, bestMax: int)
  {
    var n, m, cs, rounds := p.noOfVariables, p.noOfClauses, p.formula.clauses, |maxima|;
    && n >= 1 && Incremental.Ready(p) && rounds <= MaxRounds
    && |vbls| == rounds + 1 && |currents| == rounds + 1 && currents[0] == Some(p.formula)
    && Restartable(vbls[rounds], cs, n)
    && (currents[rounds].Some? ==>
          Incremental.Ready(Parameters(n, m, currents[rounds].value)) && currents[rounds].value.clauses == cs)
    && (currents[rounds].None? ==> !corrected && rounds >= 1 && Count(vbls[rounds]) == 0)
    && Monotone(maxima)
    && bestMax == Count(vbls[rounds]) && FirstReached(maxima, bestMax, bestM)
    && (rounds > 0 ==> maxima[rounds - 1] == bestMax)
    && (forall i :: 0 <= i < rounds ==> 0 <= maxima[i])
    && (forall i :: 0 <= i < rounds - 1 ==> maxima[i] != m)
    && (!corrected && workers >= 1 && m >= 1 && rounds >= 1 && maxima[0] == 0 ==> rounds == 1 && currents[1].None?)
    && (rounds > 0 && m >= 1 && workers >= 1 && (maxTries < 1 || AllSatisfied(cs, p.formula.values)) ==>
          maxima[0] == 0)
  }

  /** The loop's state before round 1: a new solution and the problem's
      own clauses. */
  lemma ProgressStart(p: Parameters, maxTries: int, workers: int, corrected: bool)
    requires Incremental.Ready(p) && p.noOfVariables >= 1
    ensures Progress(p, maxTries, workers, corrected, [], [], [SolutionVbl(NewSolution(p.noOfVariables).value)],
                     [Some(p.formula)], 0, 0)
  {
  }

  /** The restart loop's invariant: the rounds' record and what the
      loop knows about them. */
  ghost predicate Looping(p: Parameters, maxTries: int, workers: int, corrected: bool, maxima: seq<int>,
                          passes: seq<seq<Solution>>, vbls: seq<SolutionVbl>, currents: seq<Option<Formula>>,
                          bestM: int, bestMax: int)
  {
    && Rounds(p, maxTries, workers, corrected, maxima, passes, vbls, currents)
    && Progress(p, maxTries, workers, corrected, maxima, passes, vbls, currents, bestM, bestMax)
  }

  /** One pass of the restart loop that found clauses to copy (or no
      workers to run): the round, its record, and the best-round update. */
  method RunRound(p: Parameters, maxTries: int, workers: int, corrected: bool,
                  rounds: int, shared: SolutionVbl, current: Option<Formula>, bestM: int, bestMax: int,
                  ghost maxima: seq<int>, ghost passes: seq<seq<Solution>>,
                  ghost vbls: seq<SolutionVbl>, ghost currents: seq<Option<Formula>>)
    returns (shared': SolutionVbl, next: Option<Formula>, bestM': int, bestMax': int,
             ghost maxima': seq<int>, ghost passes': seq<seq<Solution>>,
             ghost vbls': seq<SolutionVbl>, ghost currents': seq<Option<Formula>>)
    requires Looping(p, maxTries, workers, corrected, maxima, passes, vbls, currents, bestM, bestMax)
    requires rounds == |maxima| && vbls[rounds] == shared && currents[rounds] == current
    requires |maxima| < MaxRounds && (|maxima| > 0 ==> maxima[|maxima| - 1] != p.noOfClauses)
    requires current.Some? || workers < 1
    ensures Looping(p, maxTries, workers, corrected, maxima', passes', vbls', currents', bestM', bestMax')
    ensures vbls'[|maxima'|] == shared' && currents'[|maxima'|] == next
    ensures maxima' == maxima + [Count(shared')]
    ensures bestMax' == Count(shared') && bestMax <= bestMax' && Count(shared) <= Count(shared')
    ensures next.Some? ==> next.value.clauses == p.formula.clauses
  {
    var n, m, cs := p.noOfVariables, p.noOfClauses, p.formula.clauses;
    ghost var results;
    shared', next, results := Step(n, m, cs, current, workers, maxTries, shared, corrected);
    bestM' := if bestMax < Count(shared') then rounds + 1 else bestM;
    bestMax' := if bestMax < Count(shared') then Count(shared') else bestMax;
    RoundSnoc(p, maxTries, workers, corrected, maxima, passes, vbls, currents, bestM, bestMax,
              results, shared', next, bestM', bestMax');
    maxima', passes', vbls', currents' := maxima + [Count(shared')], passes + [results], vbls + [shared'], currents + [next];
  }

  /** The record and `Progress` carried over one more round, given what
      `Step` promises about it. */
  lemma RoundSnoc(p: Parameters, maxTries: int, workers: int, corrected: bool,
                  maxima: seq<int>, passes: seq<seq<Solution>>, vbls: seq<SolutionVbl>, currents: seq<Option<Formula>>,
                  bestM: int, bestMax: int,
                  results: seq<Solution>, shared': SolutionVbl, next: Option<Formula>, bestM': int, bestMax': int)
    requires Rounds(p, maxTries, workers, corrected, maxima, passes, vbls, currents)
    requires Progress(p, maxTries, workers, corrected, maxima, passes, vbls, currents, bestM, bestMax)
    requires |maxima| < MaxRounds && (|maxima| > 0 ==> maxima[|maxima| - 1] != p.noOfClauses)
    requires currents[|maxima|].Some? || workers < 1
    requires Stepped(p.noOfVariables, p.noOfClauses, p.formula.clauses, currents[|maxima|], workers, maxTries,
                     corrected, vbls[|maxima|], results, shared', next)
    requires bestMax' == (if bestMax < Count(shared') then Count(shared') else bestMax)
    requires bestM' == (if bestMax < Count(shared') then |maxima| + 1 else bestM)
    ensures Looping(p, maxTries, workers, corrected, maxima + [Count(shared')], passes + [results],
                    vbls + [shared'], currents + [next], bestM', bestMax')
  {
    RoundsSnoc(p, maxTries, workers, corrected, maxima, passes, vbls, currents, results, shared', next);
    ProgressSnoc(p, maxTries, workers, corrected, maxima, passes, vbls, currents, bestM, bestMax,
                 results, shared', next, bestM', bestMax');
  }

  /** `Progress` carried over one more round, given what `Step` promises
      about it. */
  lemma ProgressSnoc(p: Parameters, maxTries: int, workers: int, corrected: bool,
                     maxima: seq<int>, passes: seq<seq<Solution>>, vbls: seq<SolutionVbl>, currents: seq<Option<Formula>>,
                     bestM: int, bestMax: int,
                     results: seq<Solution>, shared': SolutionVbl, next: Option<Formula>, bestM': int, bestMax': int)
    requires Progress(p, maxTries, workers, corrected, maxima, passes, vbls, currents, bestM, bestMax)
    requires |maxima| < MaxRounds && (|maxima| > 0 ==> maxima[|maxima| - 1] != p.noOfClauses)
    requires currents[|maxima|].Some? || workers < 1
    requires var n, m, cs, shared, current := p.noOfVariables, p.noOfClauses, p.formula.clauses, vbls[|maxima|], currents[|maxima|];
             && Restartable(shared', cs, n) && Count(shared') >= Count(shared)
             && next == FeedForward(current, shared'.solution.clauses, corrected)
             && (next.Some? ==> Incremental.Ready(Parameters(n, m, next.value)) && next.value.clauses == cs)
             && (next.None? <==> !corrected && Count(shared') == 0)
             && (current.Some? && (maxTries < 1 || AllSatisfied(cs, current.value.values)) && Count(shared) == 0 ==>
                   Count(shared') == 0)
    requires bestMax' == (if bestMax < Count(shared') then Count(shared') else bestMax)
    requires bestM' == (if bestMax < Count(shared') then |maxima| + 1 else bestM)
    ensures Progress(p, maxTries, workers, corrected, maxima + [Count(shared')], passes + [results],
                     vbls + [shared'], currents + [next], bestM', bestMax')
  {
    var rounds := |maxima|;
    RecordRound(maxima, bestMax, bestM, Count(shared'));
    var maxima' := maxima + [Count(shared')];
    assert forall i :: 0 <= i < rounds ==> maxima'[i] == maxima[i];
    if rounds == 0 {
      assert currents[0] == Some(p.formula);
    }
  }

  /** Where the loop stops normally, after the last round or on a round
      that satisfied every clause, `Progress` gives the outcome's
      properties; and the as-written driver never gets there after a first
      round that left the count 0. */
  lemma Finish(p: Parameters, maxTries: int, workers: int, corrected: bool, maxima: seq<int>,
               passes: seq<seq<Solution>>, vbls: seq<SolutionVbl>, currents: seq<Option<Formula>>,
               bestM: int, bestMax: int)
    requires Progress(p, maxTries, workers, corrected, maxima, passes, vbls, currents, bestM, bestMax)
    requires |maxima| >= 1 && (|maxima| < MaxRounds ==> maxima[|maxima| - 1] == p.noOfClauses)
    ensures Monotone(maxima) && maxima[0] >= 0
    ensures bestMax == Count(vbls[|maxima|]) == maxima[|maxima| - 1]
    ensures FirstReached(maxima, bestMax, bestM)
    ensures forall i :: 0 <= i < |maxima| - 1 ==> maxima[i] != p.noOfClauses
    ensures Restartable(vbls[|maxima|], p.formula.clauses, p.noOfVariables)
    ensures !(!corrected && workers >= 1 && p.noOfClauses >= 1 && maxima[0] == 0)
  {
  }

  /** Where the as-written driver finds no clauses to copy: round 1 left
      the count 0 on a problem with clauses. */
  lemma Stuck(p: Parameters, maxTries: int, workers: int, corrected: bool, maxima: seq<int>,
              passes: seq<seq<Solution>>, vbls: seq<SolutionVbl>, currents: seq<Option<Formula>>,
              bestM: int, bestMax: int)
    requires Progress(p, maxTries, workers, corrected, maxima, passes, vbls, currents, bestM, bestMax)
    requires |maxima| > 0 ==> maxima[|maxima| - 1] != p.noOfClauses
    requires currents[|maxima|].None? && workers >= 1
    ensures !corrected && p.noOfClauses >= 1 && |maxima| == 1 && maxima[0] == 0 && currents[1].None?
  {
  }

  /** The restart loop, as written (`corrected` false) or with the
      feed-forward corrected, with the rounds it ran recorded in
      `passes`/`vbls`/`currents`. `maxima[k]` is the shared count after
      round `k`. The counts never decrease, `bestMax` is the last of them
      and `bestM` the round that first reached it, and the loop ends early
      only on a round that satisfies every clause. As written, the loop
      throws a NullPointerException when round 1 ends with a count of 0
      and a second round with workers follows; corrected, it never
      throws. */
  method Run(p: Parameters, maxTries: int, workers: int, corrected: bool)
    returns (r: Result<Outcome>, ghost maxima: seq<int>,
             ghost passes: seq<seq<Solution>>, ghost vbls: seq<SolutionVbl>, ghost currents: seq<Option<Formula>>)
    requires Incremental.Ready(p)
    ensures p.noOfVariables < 1 ==> r == Failure(IllegalArgument)
    ensures p.noOfVariables >= 1 ==> Rounds(p, maxTries, workers, corrected, maxima, passes, vbls, currents)
    ensures p.noOfVariables >= 1 && r.Failure? ==>
              && r.error == NullPointer && !corrected && workers >= 1 && p.noOfClauses >= 1
              && |maxima| == 1 && maxima[0] == 0 && currents[1].None?
    ensures (p.noOfVariables >= 1 && !corrected && workers >= 1 && p.noOfClauses >= 1 &&
             |maxima| >= 1 && maxima[0] == 0) ==> r.Failure?
    ensures r.Success? ==>
              && 1 <= |maxima| == r.value.rounds <= MaxRounds
              && r.value.reduction == vbls[|maxima|]
              && Monotone(maxima) && maxima[0] >= 0
              && r.value.bestMax == Count(r.value.reduction) == maxima[|maxima| - 1]
              && FirstReached(maxima, r.value.bestMax, r.value.bestM)
              && (forall i :: 0 <= i < |maxima| - 1 ==> maxima[i] != p.noOfClauses)
              && (|maxima| < MaxRounds ==> maxima[|maxima| - 1] == p.noOfClauses)
              && Restartable(r.value.reduction, p.formula.clauses, p.noOfVariables)
    ensures (p.noOfVariables >= 1 && p.noOfClauses >= 1 && workers >= 1 &&
             (maxTries < 1 || AllSatisfied(p.formula.clauses, p.formula.values))) ==> |maxima| >= 1 && maxima[0] == 0
  {
    maxima, passes, vbls, currents := [], [], [], [];
    var created := NewSolution(p.noOfVariables);
    if created.Failure? {
      return Failure(created.error), maxima, passes, vbls, currents;
    }
    var shared := SolutionVbl(created.value);
    var current: Option<Formula> := Some(p.formula);
    vbls, currents := [shared], [current];
    var bestM, bestMax := 0, 0;
    ProgressStart(p, maxTries, workers, corrected);
    assert Rounds(p, maxTries, workers, corrected, maxima, passes, vbls, currents);
    var rounds := 0;
    while rounds < MaxRounds
      invariant Looping(p, maxTries, workers, corrected, maxima, passes, vbls, currents, bestM, bestMax)
      invariant rounds == |maxima| && vbls[rounds] == shared && currents[rounds] == current
      invariant rounds > 0 ==> maxima[rounds - 1] != p.noOfClauses
    {
      if current.None? && workers >= 1 {
        Stuck(p, maxTries, workers, corrected, maxima, passes, vbls, currents, bestM, bestMax);
        return Failure(NullPointer), maxima, passes, vbls, currents;
      }
      var next;
      shared, next, bestM, bestMax, maxima, passes, vbls, currents :=
        RunRound(p, maxTries, workers, corrected, rounds, shared, current, bestM, bestMax, maxima, passes, vbls, currents);
      rounds := rounds + 1;
      if Count(shared) == p.noOfClauses {
        break;
      }
      current := next;
    }
    Finish(p, maxTries, workers, corrected, maxima, passes, vbls, currents, bestM, bestMax);
    r := Success(Outcome(bestM, bestMax, rounds, shared));
  }

  /** Recording the count after one more round keeps the counts monotone
      and `bestM` the first round that reached the best count, when the
      best moves only on a strict improvement. */
  lemma {:induction false} RecordRound(maxima: seq<int>, bestMax: int, bestM: int, next: int)
    requires Monotone(maxima) && FirstReached(maxima, bestMax, bestM)
    requires bestMax >= 0 && (|maxima| > 0 ==> maxima[|maxima| - 1] == bestMax)
    requires bestMax <= next
    ensures Monotone(maxima + [next])
    ensures FirstReached(maxima + [next], next, if bestMax < next then |maxima| + 1 else bestM)
  {
    var maxima' := maxima + [next];
    assert forall i :: 0 <= i < |maxima| ==> maxima'[i] == maxima[i];
    if bestMax < next {
      assert forall i :: 0 <= i < |maxima| ==> maxima[i] <= bestMax;
    }
  }

  /** `main`, as written: the restart loop feeding the reduction
      variable's clauses forward even when they are `null`. It succeeds
      exactly when there are no workers or clauses, or the first round of
      the recorded run ends with a positive count; otherwise round 2's deep
      copy throws. That happens whenever no try runs, or the starting
      assignment already satisfies every clause: every worker of round 1
      then records nothing and the reduction variable still holds `null`. */
  method Drive(p: Parameters, maxTries: int, workers: int)
    returns (r: Result<Outcome>, ghost maxima: seq<int>,
             ghost passes: seq<seq<Solution>>, ghost vbls: seq<SolutionVbl>, ghost currents: seq<Option<Formula>>)
    requires Incremental.Ready(p)
    ensures p.noOfVariables >= 1 ==> Rounds(p, maxTries, workers, false, maxima, passes, vbls, currents)
    ensures r.Success? <==>
              p.noOfVariables >= 1 && (workers < 1 || p.noOfClauses < 1 || (|maxima| >= 1 && maxima[0] > 0))
    ensures r.Failure? && p.noOfVariables >= 1 ==> r.error == NullPointer && |maxima| == 1 && currents[1].None?
    ensures (p.noOfVariables >= 1 && p.noOfClauses >= 1 && workers >= 1 &&
             (maxTries < 1 || AllSatisfied(p.formula.clauses, p.formula.values))) ==> r == Failure(NullPointer)
    ensures r.Success? ==>
              && 1 <= |maxima| == r.value.rounds <= MaxRounds
              && r.value.reduction == vbls[|maxima|]
              && Monotone(maxima) && maxima[0] >= 0
              && r.value.bestMax == Count(r.value.reduction) == maxima[|maxima| - 1]
              && FirstReached(maxima, r.value.bestMax, r.value.bestM)
              && (forall i :: 0 <= i < |maxima| - 1 ==> maxima[i] != p.noOfClauses)
              && (|maxima| < MaxRounds ==> maxima[|maxima| - 1] == p.noOfClauses)
              && Restartable(r.value.reduction, p.formula.clauses, p.noOfVariables)
  {
    r, maxima, passes, vbls, currents := Run(p, maxTries, workers, false);
  }

  /** `main` with the feed-forward corrected: while the reduction variable
      holds no clauses the next round restarts from the current ones, so
      the driver fails only when the constructor rejects the variable
      count, and the outcome is the last fold of the recorded rounds. */
  method DriveCorrected(p: Parameters, maxTries: int, workers: int)
    returns (r: Result<Outcome>, ghost maxima: seq<int>,
             ghost passes: seq<seq<Solution>>, ghost vbls: seq<SolutionVbl>, ghost currents: seq<Option<Formula>>)
    requires Incremental.Ready(p)
    ensures r.Failure? <==> p.noOfVariables < 1
    ensures r.Success? ==> Rounds(p, maxTries, workers, true, maxima, passes, vbls, currents)
    ensures r.Success? ==>
              && 1 <= |maxima| == r.value.rounds <= MaxRounds
              && r.value.reduction == vbls[|maxima|]
              && Monotone(maxima) && maxima[0] >= 0
              && r.value.bestMax == Count(r.value.reduction) == maxima[|maxima| - 1]
              && FirstReached(maxima, r.value.bestMax, r.value.bestM)
              && (forall i :: 0 <= i < |maxima| - 1 ==> maxima[i] != p.noOfClauses)
              && (|maxima| < MaxRounds ==> maxima[|maxima| - 1] == p.noOfClauses)
              && Restartable(r.value.reduction, p.formula.clauses, p.noOfVariables)
  {
    r, maxima, passes, vbls, currents := Run(p, maxTries, workers, true);
  }

  /** `p cnf 1 1` with the single clause `-1`, read with every variable
      starting `false`: the starting assignment satisfies the clause. */
  function TrueAtStart(): (p: Parameters)
    ensures Incremental.Ready(p)
    ensures AllSatisfied(p.formula.clauses, p.formula.values)
  {
    var c := Clause(1, [Literal(1, true)]);
    assert Satisfied(c, [false, false]) by {
      assert Value(c.literals[0], [false, false]);
    }
    Parameters(1, 1, Formula([c], [false, false]))
  }

  /** The as-written driver on `TrueAtStart` with one try and one worker
      throws, where the corrected driver does not. */
  method NullFeedWitness() returns (asWritten: Result<Outcome>, corrected: Result<Outcome>)
    ensures asWritten == Failure(NullPointer)
    ensures corrected.Success?
  {
    var p := TrueAtStart();
    ghost var maxima, passes, vbls, currents;
    asWritten, maxima, passes, vbls, currents := Drive(p, 1, 1);
    corrected, maxima, passes, vbls, currents := DriveCorrected(p, 1, 1);
  }
}

=== FILE: solution.dfy ===
/** Solution.java: the outcome of one search, and the deep-copying
    assignments between outcomes. */
module Solutions {
  import opened Base
  import opened Clauses
  import opened Problem
  import opened Utilities

  /** Elapsed time (seconds), iterations consumed, the best satisfied-clause
      count, the variable count used for copies, and the best clause state
      (`None` for Java's `null`). */
  datatype Solution = Solution(
    time: real,
    noOfIterations: int,
    noOfSatisfiedClauses: int,
    noOfVariables: int,
    clauses: Option<Formula>)

  /** What every Solution object satisfies: the constructor admitted its
      variable count, and the clauses it holds reach their variables. */
  predicate Valid(s: Solution)
  {
    s.noOfVariables >= 1 && (s.clauses.Some? ==> Wellformed(s.clauses.value))
  }

  /** `new Solution(noOfVariables)`: rejects fewer than one variable;
      otherwise every count is zero and no clauses are held. */
  function NewSolution(noOfVariables: int): (r: Result<Solution>)
    ensures r.Failure? <==> noOfVariables < 1
    ensures r.Failure? ==> r.error == IllegalArgument
    ensures r.Success? ==> Valid(r.value) && r.value.noOfVariables == noOfVariables
    ensures r.Success? ==> r.value.time == 0.0 && r.value.noOfIterations == 0 &&
                           r.value.noOfSatisfiedClauses == 0 && r.value.clauses.None?
  {
    if noOfVariables < 1 then Failure(IllegalArgument)
    else Success(Solution(0.0, 0, 0, noOfVariables, None))
  }

  /** The clauses `copy` and `update` leave in `dst`: a deep copy of the
      source's clauses taken with `dst`'s variable count; the old clauses
      when the source holds none, or when the copy throws (the exception is
      caught and printed, so the assignment never happens). */
  function CopiedClauses(dst: Solution, src: Solution): (r: Option<Formula>)
    requires Valid(src)
    ensures src.clauses.None? ==> r == dst.clauses
    ensures src.clauses.Some? && !Copyable(src.clauses.value, dst.noOfVariables) ==> r == dst.clauses
    ensures src.clauses.Some? && Copyable(src.clauses.value, dst.noOfVariables) ==>
              && r.Some?
              && r.value.clauses == src.clauses.value.clauses
              && |r.value.values| == dst.noOfVariables + 1
              && Wellformed(r.value)
              && CountSatisfied(r.value.clauses, r.value.values) ==
                 CountSatisfied(src.clauses.value.clauses, src.clauses.value.values)
  {
    match src.clauses
    case None => dst.clauses
    case Some(f) =>
      match DeepCopyClauses(f, dst.noOfVariables)
      case Failure(_) => dst.clauses
      case Success(g) =>
        DeepCopyPreservesSatisfaction(f, dst.noOfVariables);
        Some(g)
  }

  /** `copy(src)`: takes over the source's counts and time, deep-copies its
      clauses, and keeps its own variable count. */
  function Copy(dst: Solution, src: Solution): (r: Solution)
    requires Valid(src)
    ensures r.noOfIterations == src.noOfIterations
    ensures r.noOfSatisfiedClauses == src.noOfSatisfiedClauses
    ensures r.time == src.time
    ensures r.noOfVariables == dst.noOfVariables
    ensures r.clauses == CopiedClauses(dst, src)
    ensures Valid(dst) ==> Valid(r)
  {
    Solution(src.time, src.noOfIterations, src.noOfSatisfiedClauses, dst.noOfVariables, CopiedClauses(dst, src))
  }

  /** `update(src)`: adds the source's iterations and time to its own,
      takes over the source's satisfied count, and deep-copies its clauses. */
  function Update(dst: Solution, src: Solution): (r: Solution)
    requires Valid(src)
    ensures r.noOfIterations == dst.noOfIterations + src.noOfIterations
    ensures r.noOfSatisfiedClauses == src.noOfSatisfiedClauses
    ensures r.time == dst.time + src.time
    ensures r.noOfVariables == dst.noOfVariables
    ensures r.clauses == CopiedClauses(dst, src)
    ensures Valid(dst) ==> Valid(r)
  {
    Solution(dst.time + src.time, dst.noOfIterations + src.noOfIterations,
             src.noOfSatisfiedClauses, dst.noOfVariables, CopiedClauses(dst, src))
  }

  /** `clone()`: a new Solution on the same variable count, copied from
      this one. Its clauses are a separate copy that satisfies the same
      number of clauses. */
  function Clone(s: Solution): (r: Solution)
    requires Valid(s)
    ensures Valid(r)
    ensures r.time == s.time && r.noOfIterations == s.noOfIterations
    ensures r.noOfSatisfiedClauses == s.noOfSatisfiedClauses && r.noOfVariables == s.noOfVariables
    ensures s.clauses.Some? && Copyable(s.clauses.value, s.noOfVariables) ==>
              && r.clauses.Some?
              && r.clauses.value.clauses == s.clauses.value.clauses
              && CountSatisfied(r.clauses.value.clauses, r.clauses.value.values) ==
                 CountSatisfied(s.clauses.value.clauses, s.clauses.value.values)
    ensures !(s.clauses.Some? && Copyable(s.clauses.value, s.noOfVariables)) ==> r.clauses.None?
  {
    Copy(NewSolution(s.noOfVariables).value, s)
  }
}

=== FILE: solution_vbl.dfy ===
/** SolutionVbl.java: the reduction variable that keeps the Solution with
    the most satisfied clauses. */
module SolutionVbls {
  import opened Base
  import opened Solutions
  import opened Problem
  import opened Utilities

  datatype SolutionVbl = SolutionVbl(solution: Solution)

  function Count(v: SolutionVbl): int
  {
    v.solution.noOfSatisfiedClauses
  }

  /** `compareNoOfSatisfiedClauses(cand)`: copies the candidate in only when
      it satisfies strictly more clauses; on a tie the holder stays. */
  function Compare(v: SolutionVbl, cand: Solution): (r: SolutionVbl)
    requires Valid(cand)
    ensures Count(r) == Max(Count(v), cand.noOfSatisfiedClauses)
    ensures cand.noOfSatisfiedClauses <= Count(v) ==> r == v
    ensures cand.noOfSatisfiedClauses > Count(v) ==>
              && r.solution.noOfIterations == cand.noOfIterations
              && r.solution.time == cand.time
              && r.solution.clauses == CopiedClauses(v.solution, cand)
    ensures r.solution.noOfVariables == v.solution.noOfVariables
    ensures Valid(v.solution) ==> Valid(r.solution)
  {
    if cand.noOfSatisfiedClauses > v.solution.noOfSatisfiedClauses then
      SolutionVbl(Copy(v.solution, cand))
    else v
  }

  /** `reduce(other)`: the join-time combination of two reduction variables. */
  function Reduce(v: SolutionVbl, other: SolutionVbl): (r: SolutionVbl)
    requires Valid(other.solution)
    ensures Count(r) == Max(Count(v), Count(other))
    ensures Count(other) <= Count(v) ==> r == v
  {
    if other.solution.noOfSatisfiedClauses > v.solution.noOfSatisfiedClauses then
      SolutionVbl(Copy(v.solution, other.solution))
    else v
  }

  /** `set(other)`: copies unconditionally, with no comparison. */
  function Set(v: SolutionVbl, other: SolutionVbl): (r: SolutionVbl)
    requires Valid(other.solution)
    ensures Count(r) == Count(other)
    ensures r.solution.noOfIterations == other.solution.noOfIterations
    ensures r.solution.time == other.solution.time
    ensures r.solution.clauses == CopiedClauses(v.solution, other.solution)
    ensures r.solution.noOfVariables == v.solution.noOfVariables
  {
    SolutionVbl(Copy(v.solution, other.solution))
  }

  /** `clone()`: a reduction variable holding a clone of this one's Solution. */
  function CloneVbl(v: SolutionVbl): (r: SolutionVbl)
    requires Valid(v.solution)
    ensures Count(r) == Count(v) && Valid(r.solution)
    ensures r.solution.noOfIterations == v.solution.noOfIterations
    ensures r.solution.time == v.solution.time && r.solution.noOfVariables == v.solution.noOfVariables
    ensures var s := v.solution;
            s.clauses.Some? && Copyable(s.clauses.value, s.noOfVariables) ==>
              && r.solution.clauses.Some?
              && r.solution.clauses.value.clauses == s.clauses.value.clauses
              && CountSatisfied(r.solution.clauses.value.clauses, r.solution.clauses.value.values) ==
                 CountSatisfied(s.clauses.value.clauses, s.clauses.value.values)
    ensures var s := v.solution;
            !(s.clauses.Some? && Copyable(s.clauses.value, s.noOfVariables)) ==> r.solution.clauses.None?
  {
    SolutionVbl(Clone(v.solution))
  }

  /** `reduce` applies exactly the rule of `compareNoOfSatisfiedClauses`. */
  lemma ReduceIsCompare(v: SolutionVbl, other: SolutionVbl)
    requires Valid(other.solution)
    ensures Reduce(v, other) == Compare(v, other.solution)
  {
  }

  predicate AllValid(cands: seq<Solution>)
  {
    forall i :: 0 <= i < |cands| ==> Valid(cands[i])
  }

  /** Offering `cands` to `v` one after another. */
  function Absorb(v: SolutionVbl, cands: seq<Solution>): (r: SolutionVbl)
    requires AllValid(cands)
    ensures Valid(v.solution) ==> Valid(r.solution)
    decreases |cands|
  {
    if |cands| == 0 then v else Absorb(Compare(v, cands[0]), cands[1..])
  }

  /** Offering one more candidate after a fold is one more `Compare`. */
  lemma {:induction false} AbsorbSnoc(v: SolutionVbl, cands: seq<Solution>, last: Solution)
    requires AllValid(cands) && Valid(last)
    ensures AllValid(cands + [last])
    ensures Absorb(v, cands + [last]) == Compare(Absorb(v, cands), last)
    decreases |cands|
  {
    var all := cands + [last];
    if |cands| > 0 {
      assert all[0] == cands[0];
      assert all[1..] == cands[1..] + [last];
      AbsorbSnoc(Compare(v, cands[0]), cands[1..], last);
    } else {
      assert all[1..] == [];
    }
  }

  /** The folded count is the largest of the initial count and the
      candidates' counts: an upper bound that one of them attains. */
  lemma {:induction false} AbsorbKeepsMax(v: SolutionVbl, cands: seq<Solution>)
    requires AllValid(cands)
    ensures Count(Absorb(v, cands)) >= Count(v)
    ensures forall i :: 0 <= i < |cands| ==> Count(Absorb(v, cands)) >= cands[i].noOfSatisfiedClauses
    ensures Count(Absorb(v, cands)) == Count(v) ||
            exists i :: 0 <= i < |cands| && Count(Absorb(v, cands)) == cands[i].noOfSatisfiedClauses
    decreases |cands|
  {
    if |cands| > 0 {
      var rest := cands[1..];
      assert forall i :: 0 <= i < |rest| ==> rest[i] == cands[i + 1];
      AbsorbKeepsMax(Compare(v, cands[0]), rest);
      var r := Absorb(v, cands);
      if Count(r) != Count(v) && Count(r) != cands[0].noOfSatisfiedClauses {
        var i :| 0 <= i < |rest| && Count(r) == rest[i].noOfSatisfiedClauses;
        assert Count(r) == cands[i + 1].noOfSatisfiedClauses;
      }
    }
  }

  /** Any order of the same candidates folds to the same count. */
  lemma AbsorbOrderIrrelevant(v: SolutionVbl, xs: seq<Solution>, ys: seq<Solution>)
    requires AllValid(xs) && AllValid(ys)
    requires multiset(xs) == multiset(ys)
    ensures Count(Absorb(v, xs)) == Count(Absorb(v, ys))
  {
    AbsorbKeepsMax(v, xs);
    AbsorbKeepsMax(v, ys);
    Dominates(v, xs, ys);
    Dominates(v, ys, xs);
  }

  /** A fold never beats a fold of the same candidates in another order. */
  lemma Dominates(v: SolutionVbl, xs: seq<Solution>, ys: seq<Solution>)
    requires AllValid(xs) && AllValid(ys)
    requires multiset(xs) == multiset(ys)
    ensures Count(Absorb(v, xs)) <= Count(Absorb(v, ys))
  {
    AbsorbKeepsMax(v, xs);
    AbsorbKeepsMax(v, ys);
    if Count(Absorb(v, xs)) != Count(v) {
      var i :| 0 <= i < |xs| && Count(Absorb(v, xs)) == xs[i].noOfSatisfiedClauses;
      assert xs[i] in multiset(ys);
      var j :| 0 <= j < |ys| && ys[j] == xs[i];
    }
  }

  /** A worker's thread-local clone, folded over its own solutions and then
      reduced into the shared variable, leaves the shared count where a
      direct fold would. */
  lemma ThreadLocalFold(shared: SolutionVbl, cands: seq<Solution>)
    requires Valid(shared.solution) && AllValid(cands)
    ensures Count(Reduce(shared, Absorb(CloneVbl(shared), cands))) == Count(Absorb(shared, cands))
  {
    AbsorbKeepsMax(shared, cands);
    AbsorbKeepsMax(CloneVbl(shared), cands);
  }

  function WithCount(count: int, iterations: int): Solution
  {
    Solution(0.0, iterations, count, 1, None)
  }

  /** Counts 3, 7, 5, 7, 2 folded into a fresh variable end at 7, in this
      order and in every other. */
  lemma FoldExample(order: seq<Solution>)
    requires multiset(order) == multiset([WithCount(3, 1), WithCount(7, 1), WithCount(5, 1), WithCount(7, 1), WithCount(2, 1)])
    ensures AllValid(order)
    ensures Count(Absorb(SolutionVbl(NewSolution(1).value), order)) == 7
  {
    var xs := [WithCount(3, 1), WithCount(7, 1), WithCount(5, 1), WithCount(7, 1), WithCount(2, 1)];
    var v := SolutionVbl(NewSolution(1).value);
    forall i | 0 <= i < |order|
      ensures Valid(order[i])
    {
      assert order[i] in multiset(xs);
    }
    AbsorbOrderIrrelevant(v, xs, order);
  }

  /** On a tie the first holder stays: which Solution's iterations survive
      depends on the order even though the count does not. */
  lemma TieKeepsHolder()
    ensures var v := SolutionVbl(NewSolution(1).value);
            var a := WithCount(7, 10);
            var b := WithCount(7, 20);
            && Absorb(v, [a, b]).solution.noOfIterations == 10
            && Absorb(v, [b, a]).solution.noOfIterations == 20
            && Count(Absorb(v, [a, b])) == Count(Absorb(v, [b, a]))
  {
    var v := SolutionVbl(NewSolution(1).value);
    var a := WithCount(7, 10);
    var b := WithCount(7, 20);
    assert [a, b][1..] == [b] && [b, a][1..] == [a] && [b][1..] == [] && [a][1..] == [];
    var va := Compare(v, a);
    assert va.solution.noOfIterations == 10 && Count(va) == 7;
    assert Absorb(v, [a, b]) == Absorb(va, [b]) == Absorb(Compare(va, b), []) == va;
    var vb := Compare(v, b);
    assert vb.solution.noOfIterations == 20 && Count(vb) == 7;
    assert Absorb(v, [b, a]) == Absorb(vb, [a]) == Absorb(Compare(vb, a), []) == vb;
  }
}

=== FILE: utilities.dfy ===
/** The deep copy of Utilities.java: `extractVariables`,
    `getDeepCopiedClauses` and `getDeepCopiedParameters`.

    The copy builds a fresh variable array `variables[0..n]`, one new
    variable per name met while scanning every literal (a later literal
    naming the same variable overwrites the earlier copy with the same
    value), then rebuilds every clause on those fresh variables. In the
    arena encoding the fresh variable array becomes the copy's arena; a
    name no literal mentions keeps a `null` slot in Java and holds `false`
    in the copy's arena, where no literal reads it. */
module Utilities {
  import opened Base
  import opened Literals
  import opened Clauses
  import opened Problem

  /** Some literal of `lits` names `v`. */
  predicate InLiterals(lits: seq<Literal>, v: int)
  {
    exists k :: 0 <= k < |lits| && lits[k].name == v
  }

  /** The scan of one clause's literals in `extractVariables`: writes a
      fresh variable carrying the source value into `variables[name]`,
      failing at the first name past the end of the array. */
  function ExtractLiterals(lits: seq<Literal>, values: Assignment, n: int, vars: seq<Option<bool>>)
    : (r: Result<seq<Option<bool>>>)
    requires |vars| == n + 1
    requires forall k :: 0 <= k < |lits| ==> 0 <= lits[k].name < |values|
    ensures r.Failure? <==> exists k :: 0 <= k < |lits| && lits[k].name > n
    ensures r.Failure? ==> r.error == IndexOutOfBounds
    ensures r.Success? ==> |r.value| == n + 1
    ensures r.Success? ==> forall v :: 0 <= v <= n ==>
              r.value[v] == if InLiterals(lits, v) then Some(values[v]) else vars[v]
    decreases |lits|
  {
    if |lits| == 0 then Success(vars)
    else
      var v := lits[0].name;
      if v > n then Failure(IndexOutOfBounds)
      else
        assert forall k :: 0 <= k < |lits| - 1 ==> lits[1..][k] == lits[k + 1];
        assert forall w :: InLiterals(lits, w) <==> w == v || InLiterals(lits[1..], w) by {
          forall w | InLiterals(lits, w) && w != v
            ensures InLiterals(lits[1..], w)
          {
            var k :| 0 <= k < |lits| && lits[k].name == w;
            assert lits[1..][k - 1].name == w;
          }
        }
        ExtractLiterals(lits[1..], values, n, vars[v := Some(values[v])])
  }

  /** The scan of `extractVariables` over the clauses, in order. */
  function ExtractClauses(cs: seq<Clause>, values: Assignment, n: int, vars: seq<Option<bool>>)
    : (r: Result<seq<Option<bool>>>)
    requires |vars| == n + 1
    requires Reads(cs, values)
    ensures r.Failure? <==> !NamesWithin(cs, n)
    ensures r.Failure? ==> r.error == IndexOutOfBounds
    ensures r.Success? ==> |r.value| == n + 1
    ensures r.Success? ==> forall v :: 0 <= v <= n ==>
              r.value[v] == if Occurs(cs, v) then Some(values[v]) else vars[v]
    decreases |cs|
  {
    if |cs| == 0 then Success(vars)
    else
      assert forall j :: 0 <= j < |cs| - 1 ==> cs[1..][j] == cs[j + 1];
      assert forall w :: Occurs(cs, w) <==> InLiterals(cs[0].literals, w) || Occurs(cs[1..], w) by {
        forall w | Occurs(cs, w)
          ensures InLiterals(cs[0].literals, w) || Occurs(cs[1..], w)
        {
          var j, k :| 0 <= j < |cs| && 0 <= k < |cs[j].literals| && cs[j].literals[k].name == w;
          if j > 0 {
            assert cs[1..][j - 1].literals[k].name == w;
          }
        }
        forall w | InLiterals(cs[0].literals, w)
          ensures Occurs(cs, w)
        {
          var k :| 0 <= k < |cs[0].literals| && cs[0].literals[k].name == w;
          assert cs[0].literals[k].name == w;
        }
      }
      assert NamesWithin(cs, n) <==>
             (forall k :: 0 <= k < |cs[0].literals| ==> cs[0].literals[k].name <= n) && NamesWithin(cs[1..], n) by {
        if !NamesWithin(cs, n) {
          var j, k :| 0 <= j < |cs| && 0 <= k < |cs[j].literals| && !(0 <= cs[j].literals[k].name <= n);
          if j > 0 {
            assert cs[1..][j - 1].literals[k] == cs[j].literals[k];
          }
        }
        if NamesWithin(cs, n) {
          assert forall k :: 0 <= k < |cs[0].literals| ==> cs[0].literals[k].name <= n;
        }
      }
      match ExtractLiterals(cs[0].literals, values, n, vars)
      case Failure(e) => Failure(e)
      case Success(vars') => ExtractClauses(cs[1..], values, n, vars')
  }

  /** `extractVariables(clauses, noOfVariables)`: allocates `n + 1` empty
      slots, then gives every named variable a fresh copy of its value. */
  function ExtractVariables(f: Formula, n: int): (r: Result<seq<Option<bool>>>)
    requires Wellformed(f)
    ensures r.Failure? <==> n < -1 || !NamesWithin(f.clauses, n)
    ensures r.Failure? ==> r.error == if n < -1 then NegativeArraySize else IndexOutOfBounds
    ensures r.Success? ==> |r.value| == n + 1
    ensures r.Success? ==> forall v :: 0 <= v <= n ==>
              (r.value[v].Some? <==> Occurs(f.clauses, v)) &&
              (r.value[v].Some? ==> r.value[v].value == f.values[v])
  {
    if n + 1 < 0 then Failure(NegativeArraySize)
    else
      ExtractClauses(f.clauses, f.values, n, seq(n + 1, _ => None))
  }

  /** The literal array of a copied clause: position by position a new
      literal with the same polarity on the fresh variable of the same name. */
  function RebuildLiterals(lits: seq<Literal>): (r: seq<Literal>)
    ensures |r| == |lits|
    ensures forall k :: 0 <= k < |lits| ==> r[k].name == lits[k].name && r[k].negated == lits[k].negated
  {
    seq(|lits|, k requires 0 <= k < |lits| => Literal(lits[k].name, lits[k].negated))
  }

  /** One clause of `getDeepCopiedClauses`: `new Clause(clauseLength)`
      followed by `setLiterals` with the rebuilt array. */
  function CopyClause(c: Clause): (r: Result<Clause>)
    ensures r.Failure? <==> !LengthMatches(c)
    ensures r.Failure? ==> r.error == if c.clauseLength < 0 then NegativeArraySize else InvalidLiteralCount
    ensures r.Success? ==> r.value == c
  {
    match NewClause(c.clauseLength)
    case Failure(e) => Failure(e)
    case Success(blank) => SetLiterals(blank, RebuildLiterals(c.literals))
  }

  /** The clause loop of `getDeepCopiedClauses`, stopping at the first
      clause that cannot be rebuilt. */
  function CopyClauses(cs: seq<Clause>): (r: Result<seq<Clause>>)
    ensures r.Failure? <==> !ClausesValid(cs)
    ensures r.Failure? ==> r.error == NegativeArraySize || r.error == InvalidLiteralCount
    ensures r.Success? ==> r.value == cs
  {
    if |cs| == 0 then Success([])
    else
      assert forall j :: 0 <= j < |cs| - 1 ==> cs[1..][j] == cs[j + 1];
      match CopyClause(cs[0])
      case Failure(e) => Failure(e)
      case Success(c) =>
        match CopyClauses(cs[1..])
        case Failure(e) => Failure(e)
        case Success(rest) => assert [c] + rest == cs; Success([c] + rest)
  }

  /** The copied variables as an arena: an empty slot reads `false`. */
  function Arena(vars: seq<Option<bool>>): Assignment
  {
    seq(|vars|, v requires 0 <= v < |vars| => vars[v] == Some(true))
  }

  /** The inputs on which `getDeepCopiedClauses` does not throw: the
      variable array can be allocated, every name fits in it, and every
      clause holds an array of its declared length. */
  predicate Copyable(f: Formula, n: int)
  {
    n >= -1 && NamesWithin(f.clauses, n) && ClausesValid(f.clauses)
  }

  /** `getDeepCopiedClauses(clauses, noOfVariables)`. */
  function DeepCopyClauses(f: Formula, n: int): (r: Result<Formula>)
    requires Wellformed(f)
    ensures r.Failure? <==> !Copyable(f, n)
    ensures r.Failure? && n < -1 ==> r.error == NegativeArraySize
    ensures r.Failure? && n >= -1 && !NamesWithin(f.clauses, n) ==> r.error == IndexOutOfBounds
    ensures r.Success? ==> r.value.clauses == f.clauses
    ensures r.Success? ==> |r.value.values| == n + 1 && Wellformed(r.value)
    ensures r.Success? ==> forall j, k :: 0 <= j < |f.clauses| && 0 <= k < |f.clauses[j].literals| ==>
              var v := f.clauses[j].literals[k].name; r.value.values[v] == f.values[v]
    ensures r.Success? ==> forall v :: 0 <= v <= n && !Occurs(f.clauses, v) ==> !r.value.values[v]
  {
    match ExtractVariables(f, n)
    case Failure(e) => Failure(e)
    case Success(vars) =>
      match CopyClauses(f.clauses)
      case Failure(e) => Failure(e)
      case Success(cs) =>
        var g := Formula(cs, Arena(vars));
        assert forall j, k :: 0 <= j < |f.clauses| && 0 <= k < |f.clauses[j].literals| ==>
                 Occurs(f.clauses, f.clauses[j].literals[k].name);
        Success(g)
  }

  /** A copy satisfies exactly the clauses its source satisfies. */
  lemma DeepCopyPreservesSatisfaction(f: Formula, n: int)
    requires Wellformed(f) && Copyable(f, n)
    ensures DeepCopyClauses(f, n).Success?
    ensures var g := DeepCopyClauses(f, n).value;
            (forall j :: 0 <= j < |f.clauses| ==> Satisfied(g.clauses[j], g.values) == Satisfied(f.clauses[j], f.values)) &&
            CountSatisfied(g.clauses, g.values) == CountSatisfied(f.clauses, f.values)
  {
    var g := DeepCopyClauses(f, n).value;
    CountSatisfiedAgree(f.clauses, g.values, f.values);
  }

  /** Flipping a variable in the copy is seen by every copied literal that
      names it and by no other copied literal, and the source keeps its
      values: one fresh variable per name, none shared with the source. */
  lemma CopyIsolatedAndShared(f: Formula, n: int, v: int)
    requires Wellformed(f) && Copyable(f, n) && 0 <= v <= n
    ensures var g := DeepCopyClauses(f, n).value;
            var flipped := Flip(g.values, v);
            (forall j, k :: 0 <= j < |g.clauses| && 0 <= k < |g.clauses[j].literals| ==>
               Value(g.clauses[j].literals[k], flipped) ==
               if g.clauses[j].literals[k].name == v then !Value(g.clauses[j].literals[k], g.values)
               else Value(g.clauses[j].literals[k], g.values)) &&
            (forall j, k :: 0 <= j < |f.clauses| && 0 <= k < |f.clauses[j].literals| ==>
               Value(f.clauses[j].literals[k], f.values) == Value(g.clauses[j].literals[k], g.values))
  {
  }

  /** `getDeepCopiedParameters`: the counts are kept and the clauses are
      deep-copied with the problem's own variable count. */
  function DeepCopyParameters(p: Parameters): (r: Result<Parameters>)
    requires Wellformed(p.formula)
    ensures r.Failure? <==> !Copyable(p.formula, p.noOfVariables)
    ensures r.Success? ==> r.value.noOfVariables == p.noOfVariables && r.value.noOfClauses == p.noOfClauses
    ensures r.Success? ==> r.value.formula == DeepCopyClauses(p.formula, p.noOfVariables).value
  {
    match DeepCopyClauses(p.formula, p.noOfVariables)
    case Failure(e) => Failure(e)
    case Success(g) => Success(Parameters(p.noOfVariables, p.noOfClauses, g))
  }

  /** The deep copy of the clauses under `a` that the search keeps as its
      best state: the same clauses, and the same satisfied count. */
  function Snapshot(cs: seq<Clause>, a: Assignment, n: int): (f: Formula)
    requires |a| == n + 1 && NamesWithin(cs, n) && ClausesValid(cs)
    ensures f.clauses == cs && |f.values| == n + 1 && Wellformed(f)
    ensures CountSatisfied(f.clauses, f.values) == CountSatisfied(cs, a)
  {
    DeepCopyPreservesSatisfaction(Formula(cs, a), n);
    DeepCopyClauses(Formula(cs, a), n).value
  }
}
